=== FILE: README.md ===
# LLM bot helpers — a Dafny model of the deterministic core

The repository is a set of chat bots built on language models. Most of it is glue
around model calls. This project models the parts whose behaviour is fixed by the
code rather than by a model, and proves properties of them:

- **Wayfinding** (`wayfinding.dfy`, `wayfinding_scenarios.dfy`): the hospital route
  finder.
  - `buildGraph` turns the connection table into an adjacency map.
  - `findPath` runs a depth-first search. It keeps only edges whose target is
    unvisited, whose mode is allowed for the mobility profile, whose accessibility
    is "yes" and whose validity window contains the current date.
  - `findSuitablePath` composes the two.
  - Small tables pin down the exact result lists, including a simple route the
    search never reports.
- **Kidney-care booking** (`kidney_care.dfy`): the agent tools that work over a
  schedule store.
  - Posting the collected details to the webhook.
  - Listing free slots in the patient's city and listing the patient's booked slots.
  - Checking, selecting and booking a slot.
  - Cancelling a booking.
  - The MongoDB collections become sequences of documents. A query, `findOne`,
    `updateOne` with the positional `$` and the whole-array `$set` follow MongoDB's
    matching rules.
- **Date argument** (`calendar_date.dfy`): `parseDate` with its `today` / `tomorrow`
  keywords, the proleptic Gregorian successor day and the `YYYY-MM-DD` rendering.
- **Lead capture** (`lead_capture.dfy`): the interior-design bot's step machine.
  - One detail is asked for at a time.
  - The setter tools store the answers.
  - The e-mail pattern is checked.
- **Hospital assistant** (`hospital_assistant.dfy`): the appointment tools over the
  session and appointment tables, and the routing inside `processInput`.
  - Routing chooses which history records the user's message.
  - It chooses which prompt branch answers.
  - It chooses what history the agent sees.
- **RAG query** (`rag_query.dfy`): chat-history rendering, the choice of question and
  answer language, and the outputs for disabled or broken settings.
- `js_core.dfy` holds the JavaScript semantics the modules share. It covers
  `null`/`undefined` as `Option`, throwing calls as `Result`, truthiness,
  `toLowerCase`, `trim`, string order, `findIndex` and `filter`.

Model choices:

- Language-model output, clocks and regular-expression matching enter as parameters.
  These are the extracted fields, the sentiment, the reply text, today's date, the
  ISO parser's verdict and a name matcher.
- Each tool is a pure function from the store to a reply and the new store.

## Model

| member | source | states |
|---|---|---|
| Wayfinding.BuildGraphSpec | pathFindingWithRAG/index.js:320-346 | the keys are exactly the connections' FromLocationIDs; each key maps to the connections leaving it, in table order (the reference `EdgesFrom`); the date plays no part, so nothing is dropped |
| Wayfinding.BuildGraphKeepsEveryConnection | pathFindingWithRAG/index.js:324-345 | every row of the table is kept, under its own FromLocationID |
| Wayfinding.RouteStepsComeFromTable | pathFindingWithRAG/index.js:371-372 | each step of a walk over the built graph is a row of the table leaving the location the step starts from |
| Wayfinding.Dfs | pathFindingWithRAG/index.js:361-401 | every walk the search records is a route: each step is a listed edge that passes the mode, accessibility and date checks; it repeats no location, meets `end` only at its last location and extends the walk it was entered with |
| Wayfinding.Explore | pathFindingWithRAG/index.js:371-400 | the neighbour loop, from a given position of the neighbour list on, records only routes that extend the current walk |
| Wayfinding.FindPath | pathFindingWithRAG/index.js:349-410 | the bare "Neither start nor end point found in the graph." object comes back exactly when neither endpoint is a key; otherwise a non-empty list comes back; it is either `[No path found.]` alone or the records of routes found by the search |
| Wayfinding.FindPathComplete | pathFindingWithRAG/index.js:349-410 | when either endpoint is a key, `[No path found.]` comes back exactly when no route exists: a search entered where some route still avoids the visited locations always records a walk |
| Wayfinding.DfsReaches | pathFindingWithRAG/index.js:361-401 | `dfs` entered at a location from which a usable route on unvisited locations reaches `end` records at least one walk |
| Wayfinding.ExploreReaches | pathFindingWithRAG/index.js:371-400 | the neighbour loop, while the route's first edge still lies ahead, records a walk: either an earlier sibling steps onto the route, or marking its target visited leaves the route intact |
| Wayfinding.FindSuitablePath | pathFindingWithRAG/index.js:412-417 | the bare "neither found" object comes back exactly when no connection leaves `start` or `end`; otherwise `[No path found.]` comes back exactly when the built graph has no route |
| Wayfinding.ReportedRouteShape | pathFindingWithRAG/index.js:357-403 | a reported record starts at `start`, ends at `end` with `end` nowhere earlier, repeats no location, has one instruction per location ("Start at <start>", then "<DirectionText>. Near landmark is <Landmark>" per usable edge) and a total time that sums those edges |
| Wayfinding.RenderStep | pathFindingWithRAG/index.js:387-389 | the record starts as `[start]`, "Start at <start>", 0, and each step appends the target, the instruction line and the edge's time, as `newPath`, `newInstructions` and `newTime` do |
| Wayfinding.DirectConnectionReported | pathFindingWithRAG/index.js:371-403 | when a usable connection leads straight from `start` to a different `end`, the first such connection is among the reported routes |
| Wayfinding.StartIsEnd | pathFindingWithRAG/index.js:362-368 | when `start` is `end` and is a key, the only result is the one-location path with time 0 |
| WayfindingScenarios.ScenarioA | pathFindingWithRAG/index.js:378-389 | a single accessible walk inside its window gives exactly the path L001, L003 with its two instructions and 0.5 minutes |
| WayfindingScenarios.ScenarioB | pathFindingWithRAG/index.js:339-343 | outside the window the edge stays in the graph but the search refuses it and `[No path found.]` is returned |
| WayfindingScenarios.ScenarioC | pathFindingWithRAG/index.js:371-372 | results come in discovery order, which follows the table order of the connections |
| WayfindingScenarios.ScenarioD | pathFindingWithRAG/index.js:357 | a profile whose AllowedModes omit Lift gets no path over a lift-only connection |
| WayfindingScenarios.SiblingVisitedHidesRoute | pathFindingWithRAG/index.js:398-399 | L001, L003, L002, L009 is a usable simple route, yet only L001, L002, L009 is reported, because the parent's visited set keeps L002 after the first sibling |
| CalendarDate.ParseDate | appointmentBooking/utils/helper.js:3-22 | "today" and "tomorrow" in any letter case give today and the next calendar day; any other input gives the parser's date; the text reads back as that date, and is exactly ten characters (YYYY-MM-DD) for years up to 9999 and '+'-prefixed beyond; an input the parser refuses gives exactly the "Use 'today', 'tomorrow', or 'YYYY-MM-DD'" error |
| CalendarDate.ReadIsoDate | appointmentBooking/utils/helper.js:17 | the reader accepts only the shape `toISODate` writes: a four-digit year and length ten up to 9999; beyond, a '+' and six digits, or more digits without a leading zero; always with a valid date |
| CalendarDate.NextDay | appointmentBooking/utils/helper.js:9 | the day after a valid date is a valid date later than it |
| CalendarDate.NextDayIsSuccessor | appointmentBooking/utils/helper.js:9 | no valid date lies strictly between a date and its next day |
| CalendarDate.IsoDateRoundTrip | appointmentBooking/utils/helper.js:17 | the YYYY-MM-DD rendering of a valid date reads back as the same date |
| KidneyCare.ExtractedKeys | appointmentBooking/controller/functionTool.js:10-11 | the extracted fields are the keys of `collect`, or just `name` when it has none |
| KidneyCare.Payload | appointmentBooking/controller/functionTool.js:25-34 | the payload holds exactly the extracted keys that are name, phone or email, each with its argument, one member per such key in the order of the extracted keys |
| KidneyCare.JsonMembersSingle | appointmentBooking/controller/functionTool.js:45 | `JSON.stringify` writes a present field as `"key":"value"` and drops an undefined one |
| KidneyCare.JsonMembersAppend | appointmentBooking/controller/functionTool.js:45 | the members of consecutive fields come out consecutively, joined by a single comma when both parts are non-empty |
| KidneyCare.JsonMembersEmpty | appointmentBooking/controller/functionTool.js:45 | `JSON.stringify` drops undefined members, so the JSON has no members exactly when every payload value is absent |
| KidneyCare.PostInfo | appointmentBooking/controller/functionTool.js:9-58 | the webhook is posted exactly when webhook details exist and some extracted key is name, phone or email; the returned payload holds exactly those keys with their arguments, in the order of the extracted keys; the returned text is that payload as `JSON.stringify` writes it (see the two lemmas above), and it is `{}` exactly when all the values are absent |
| KidneyCare.FetchPatientInfo | appointmentBooking/utils/dbConnect.js:104-116 | `findOne` returns the first patient whose name matches and whose id is equal, and returns nothing exactly when no patient does |
| KidneyCare.SlotsWhere | appointmentBooking/controller/functionTool.js:97-106 | the flattened (date, time) list holds exactly the kept slots of the given documents |
| KidneyCare.SlotsWhereAppend | appointmentBooking/controller/functionTool.js:97-106 | documents are flattened in order: the list for consecutive documents is the concatenation of their lists |
| KidneyCare.SlotsOfInOrder | appointmentBooking/controller/functionTool.js:99-104 | within a document, the list is the `filter` of its appointments mapped to (date, time), one entry per kept slot in array order |
| JsCore.FilterAppend | appointmentBooking/controller/functionTool.js:99 | `filter` keeps array order: filtering a concatenation concatenates the filtered parts |
| KidneyCare.LookupPatientInfo | appointmentBooking/controller/functionTool.js:85-153 | an unknown patient gets "No patient found with these details"; a known one gets either the city message or slots; the city message comes exactly when no document dated today or later matches the patient's city; otherwise the offered list is those documents' free slots, flattened document by document and within each document in `appointments` order, one entry per free slot (`SlotsWhere`, whose order `SlotsWhereAppend` and `SlotsOfInOrder` state), with the patient's address and city |
| KidneyCare.FindBookedAppointment | appointmentBooking/controller/functionTool.js:155-212 | an unknown patient gets its message; a known one gets either "No Appointment found." (exactly when no document is selected) or a list; the list is the slots of the documents the query selects, whose name equals the patient's ignoring case and whose id is equal, flattened in document and `appointments` order (`SlotsWhere`), one entry per such slot |
| KidneyCare.CheckSlot | appointmentBooking/controller/functionTool.js:219-240 | the refusals come in source order: no patient, an unparseable date, no document for the date, no slot at that time, slot taken; a refusal for a taken slot names the first slot at that time in the first document for the date, and it is booked; a success names that slot, and it is free |
| KidneyCare.UpdateSlotHitsCheckedSlot | appointmentBooking/utils/dbConnect.js:150-175 | the positional update writes the booking into exactly the slot the checks found, in the first document for the date, and changes nothing else |
| KidneyCare.BookAppointmentSlot | appointmentBooking/controller/functionTool.js:214-297 | a refusal happens exactly when the checks fail and leaves the schedule unchanged; a booking writes name, phone, patient id and "address city" to the checked slot only |
| KidneyCare.SelectAppointmentSlot | appointmentBooking/controller/functionTool.js:299-367 | asking to confirm the address happens only for a known patient, and names that patient's address |
| KidneyCare.SelectAgreesWithBook | appointmentBooking/controller/functionTool.js:304-331 | select refuses exactly when booking would, with the same refusal; when it goes through, the booking's location is the confirmed address followed by the patient's city |
| KidneyCare.BookedSlotIsFound | appointmentBooking/controller/functionTool.js:155-212 | after a successful booking, listing the patient's bookings includes the slot just booked |
| KidneyCare.ClearFirstBooking | appointmentBooking/controller/functionTool.js:380-394 | the loop clears the first slot with the patient's name, id and time, and only that slot; when there is none nothing changes |
| KidneyCare.CancelAppointment | appointmentBooking/controller/functionTool.js:369-434 | as written: only the first document matching the query is searched; a booking is cancelled exactly when that document holds the patient's booking at that time; the cleared slot is its first such booking and nothing else changes; with no such booking on the date nothing is cancelled |
| KidneyCare.CancelMissesBookingInLaterDocument | appointmentBooking/utils/dbConnect.js:201-214 | two same-day documents where the first satisfies each query condition through a different slot: the tool reports "No matching appointment found." though the second holds the booking |
| KidneyCare.CancelBooking | appointmentBooking/controller/functionTool.js:369-434 | corrected: a booking is cancelled exactly when some document of that date holds the patient's booking at that time; the one cleared is the first such booking of the first such document, and nothing else changes |
| LeadCapture.NextStep | dataCollection/index.js:58-102 | the step asked is unanswered (or the conversation is complete) and every step before it in the fixed order is answered |
| LeadCapture.NextStepIsFirstUnanswered | dataCollection/index.js:58-102 | conversely, the first unanswered step in the order is the one asked |
| LeadCapture.CollectDetails | dataCollection/index.js:34-103 | a missing session is created with all eight details null; other sessions are untouched; the reply asks for the next step and `currentTool` names its tool |
| LeadCapture.CollectCustomerLocation | dataCollection/index.js:122-141 | a missing session throws (TypeError) and changes nothing; otherwise the customer location is stored; a non-empty answer moves the conversation past that step, no other detail or session changes, `currentTool` names the next step's tool and the reply asks for that step |
| LeadCapture.CollectHomeLocation | dataCollection/index.js:143-168 | a missing session throws (TypeError) and changes nothing; otherwise "same" in any letter case copies the customer location, and any other answer is stored verbatim, no other detail or session changes, `currentTool` names the next step's tool and the reply asks for that step |
| LeadCapture.CollectPropertyType | dataCollection/index.js:170-189 | a missing session throws (TypeError) and changes nothing; otherwise the property type is stored, no other detail or session changes, `currentTool` names the next step's tool and the reply asks for that step |
| LeadCapture.CollectScopeOfWork | dataCollection/index.js:191-210 | a missing session throws (TypeError) and changes nothing; otherwise the scope of work is stored, no other detail or session changes, `currentTool` names the next step's tool and the reply asks for that step |
| LeadCapture.CollectStartDate | dataCollection/index.js:212-231 | a missing session throws (TypeError) and changes nothing; otherwise the start date is stored, no other detail or session changes, `currentTool` names the next step's tool and the reply asks for that step |
| LeadCapture.AnsweringAdvances | dataCollection/index.js:122-231 | answering the step being asked with a non-empty value moves the conversation strictly forward, including "same" for the home location |
| LeadCapture.IsEmail | dataCollection/index.js:238 | the check accepts exactly the strings of the form local@domain.tld, with the pattern's character classes and a top-level part of two or more letters |
| LeadCapture.EmailSplitIsUnique | dataCollection/index.js:238 | a string of that form splits at its first `@` and its last `.` |
| LeadCapture.CollectContactInfo | dataCollection/index.js:233-267 | a missing or malformed e-mail is refused and changes nothing; then a missing session gets the "Session not found" message and nothing is created; otherwise only name and e-mail change and the next step is asked |
| LeadCapture.ConfirmBudget | dataCollection/index.js:269-296 | the answer is always stored; "yes" in any letter case asks the next step, anything else gets the fixed budget message and leaves `currentTool` alone |
| LeadCapture.YesCompletes | dataCollection/index.js:274-282 | at the budget step, "yes" completes the conversation |
| HospitalAssistant.RemoveAppointment | advanceAppointmentBooking/index.js:194-203 | the appointment and the session of the id are gone, every other entry stays, and the reply is "Data deleted successfully" |
| HospitalAssistant.ChangeLanguage | advanceAppointmentBooking/index.js:215-221 | only an existing appointment gets the new language; none is created and the reply is always true |
| HospitalAssistant.ConfirmAppointment | advanceAppointmentBooking/index.js:223-232 | a missing session throws; a complete set of details is stored as the appointment; an incomplete one returns false and leaves the appointments unchanged |
| HospitalAssistant.UpdateAppointmentDetails | advanceAppointmentBooking/index.js:234-241 | an existing appointment is overwritten with the session's details; none is created; it throws exactly when the appointment exists but the session does not |
| HospitalAssistant.CheckAppointment | advanceAppointmentBooking/index.js:243-251 | returns the stored appointment exactly when there is one |
| HospitalAssistant.ConfirmThenCheck | advanceAppointmentBooking/index.js:170-177 | once confirmed, checking returns the session's details, and they are complete |
| HospitalAssistant.RemoveThenCheck | advanceAppointmentBooking/index.js:194-251 | after removal checking finds nothing, and removing again changes nothing |
| HospitalAssistant.AreInstructionsComplete | advanceAppointmentBooking/index.js:170-177 | true exactly when doctorName, department, userLanguage and appointmentTime all hold non-empty values |
| HospitalAssistant.InputLog | advanceAppointmentBooking/index.js:354-398 | no appointment → the chat history; an appointment not checked in → the payment log; a checked-in one → the symptom log |
| HospitalAssistant.BranchOf | advanceAppointmentBooking/index.js:414-555 | the branch tests, in order: no appointment → booking; not paid → payment; paid but not checked in → check-in; paid and checked in → symptom intake |
| HospitalAssistant.LogsAgreeUnlessCheckedInUnpaid | advanceAppointmentBooking/index.js:354-398 | the log receiving the user's message differs from the log receiving the reply exactly for a checked-in appointment that is not paid |
| HospitalAssistant.MissingFields | advanceAppointmentBooking/index.js:401-402 | exactly the falsy ones of doctorName and userLanguage, in that order |
| HospitalAssistant.Logged | advanceAppointmentBooking/index.js:354-398 | the message joins the chosen log; an empty payment log is first seeded with the last four chat messages; a symptom answer carries its sentiment, which defaults to neutral before the first question; the query gets the sentiment suffix only then |
| HospitalAssistant.Respond | advanceAppointmentBooking/index.js:349-611 | the turn takes the branch of the appointment; the extracted fields override the session's details; the missing fields are recomputed from the merged details; the output carries the reply, "400" tokens and the query: the user's input, followed by the sentiment suffix exactly when the message went to the symptom log |
| HospitalAssistant.WithSentiment | advanceAppointmentBooking/index.js:585-590 | a symptom answer is replayed with " Sentiment Ananlysis Data:: " and its sentiment appended exactly when the sentiment is truthy; a null, false, 0 or empty-string sentiment leaves the text as it was |
| HospitalAssistant.TurnLogs | advanceAppointmentBooking/index.js:354-595 | the user's message is appended to its log and the reply to the branch's log; every other log is unchanged |
| HospitalAssistant.ContextPrecedesMessage | advanceAppointmentBooking/index.js:414-595 | the agent sees the branch's log as it stood before this turn: the last six chat messages, the last three payment messages, or every symptom entry, each with its truthy sentiment appended |
| HospitalAssistant.ProcessInput | advanceAppointmentBooking/index.js:349-611 | the turn's session is stored under the id, the id joins the table, and no other session changes |
| HospitalAssistant.FirstTurnData | advanceAppointmentBooking/index.js:349-398 | an unknown id starts from `{sessionId}`, so its first stored session holds the id plus the extracted fields |
| RagQuery.FormatKeepsLines | ragQuery/index.js:34-48 | the rendering is the "User: " / "System: " lines minus a whitespace tail; it ends in no whitespace, is empty exactly for an empty history and starts with the first speaker's label |
| RagQuery.LinesAppend | ragQuery/index.js:38-45 | each entry contributes exactly its own line, in order |
| RagQuery.ResolveQueryContext | ragQuery/index.js:409-432 | with a history: a JSON object reply is used, with its language replaced by English exactly when it is missing, empty or "Unknown"; a non-JSON reply gives the question and English; a `null` reply throws. Without a history: the question, and the reply text as language unless it is "Unknown" |
| RagQuery.AnswerLanguage | ragQuery/index.js:409-432 | the context never answers in "Unknown": it uses the language the reply offers when that is usable and English otherwise. The exceptions are a JSON-primitive reply, which leaves the language undefined, and an empty reply without a history, which gives the empty language |
| RagQuery.QueryAIModel | ragQuery/index.js:311-502 | unparseable or falsy settings give exactly the disabled output; settings without `vector_db` give "Not trained properly."; a store other than chromadb gives undefined; with chromadb, "Not trained properly." comes exactly when resolving the context throws or the pipeline fails, and a success otherwise, carrying the pipeline's reply and tokens and the resolved question |
| RagQuery.AnsweredQuery | ragQuery/index.js:409-478 | with chromadb and a working pipeline, the reported query is the user's question without a history or for a non-JSON rephrasing, the rephrased question for a JSON object, and "Not trained properly." exactly for a `null` rephrasing |

## Left out

- Language-model, agent, embedding and vector-store calls. This covers `agent.chat`,
  `llm.complete`, `ContextChatEngine`, `VectorStoreIndex`, the extraction and sentiment
  prompts, `getLLM` and `getEmbeddings`. Their results are parameters: the extracted
  fields, the analysed sentiment, the reply, the rephrasing reply text and the
  retrieval answer.
- `main()` in the wayfinding file, and the `exceptions` and `pointsOfInterest` tables.
  The code using the tables is commented out.
- appointmentBooking/index.js (orchestration, callbacks and `get_today`), chromaDB.js,
  and the Express server in dataCollection/index.js:313-399. These are wiring and I/O.
- Database I/O and connection caching. Each store call is its query semantics over a
  sequence of documents. A failed call (the `false` they return on an exception) is
  not modelled; `updateKidneyCareSlot` and `cancelKidneyCareAppointment` are taken to
  succeed.
- `new RegExp(name, 'i')` matching. It is the abstract `Matcher` parameter. A name
  containing regular-expression syntax is therefore not analysed.
- `toLowerCase` on non-ASCII letters. Only A-Z are lowered.
- String order on characters outside the Basic Multilingual Plane. `LexLe` compares code
  points, while JavaScript compares UTF-16 code units.
- JavaScript `Date` parsing of strings such as "5/14/2025", and luxon's ISO grammar.
  - A wayfinding date is a day number or an Invalid Date.
  - The ISO parser's verdict is a parameter.
  - Years beyond 9999 are rendered as luxon's `toISODate` writes them: a '+' and six
    digits. Negative years, which luxon reads and writes as '-' and six digits, are not
    modelled: a date's year is a natural number.
- Floating-point rounding of `EstimatedTimeMin` sums. Times are `real`.
- The module constant `currentDate` and the connection table of the wayfinding file
  become parameters of `findSuitablePath`.
- Console output, ISO timestamps on chat entries, and the text of prompts and
  presentation hints. The presentation hint appended to the slot list and the booking
  confirmation text are left out; the replies carry their data fields.
- Wayfinding.BuildGraphSpec: the closure check against the `exceptions` table at
  pathFindingWithRAG/index.js:326-337 is commented out, so `isClosed` stays false and
  every connection is kept. The model does the same.
- Wayfinding.FindPath: the search enumerates every route the DFS reaches. That number
  can be exponential in the graph size; run time is not modelled.
- KidneyCare.FindBookedAppointment: `bookedKidneyCareAppointments` passes the
  projection as the driver's options argument, which the current driver treats as
  options. Whole documents therefore come back, and the model follows that. A driver
  that applied the projection would return only the first matching slot of each
  document.
- KidneyCare: a slot's missing field is treated as `null`. MongoDB's distinction
  between an absent field and `null` in `appointment.name === null` is not modelled.
- KidneyCare.PostInfo: JSON escaping of the values is not modelled. `PayloadJson`
  quotes values as they are. An argument is present or absent, so a `null` argument
  (which `JSON.stringify` writes as `"name":null`) is treated like an absent one and
  its member is dropped.
- KidneyCare.CheckSlot: when `parseDate` throws, the handler's catch returns the
  error object. The model returns the error message, `BadDate`.
- HospitalAssistant.ConfirmAppointment: the source stores the session's `userData`
  object itself, so a later `changeLanguage` also changes the session's details. The
  model stores a copy, so that aliasing is not modelled.
- HospitalAssistant: extracted values are strings. Non-string JSON values from the
  extraction are not modelled.
- HospitalAssistant.Respond: the prompt-branch texts, the function tools offered per
  branch and the agent's tool calls within a turn are not modelled. The reply is a
  parameter.
- RagQuery.QueryAIModel: the steps between the query context and the answer (index
  loading, retriever and chat-engine set-up) are the `answer` parameter. A failure
  among them is its `Err` case. A reply that is a JSON array is treated as an object.
- RagQuery.FormatKeepsLines: a last entry with empty content loses the space after
  its label to `trim`. The lemma states only the prefix and the whitespace tail.
- LeadCapture: the chat history kept in the lead session, and the agent loop that
  calls the tools, are not modelled.

## Findings

| source | as written | input that shows it | evidently intended | confidence | as-written member | corrected member |
|---|---|---|---|---|---|---|
| appointmentBooking/utils/dbConnect.js:201-214 with appointmentBooking/controller/functionTool.js:374-399 | `findKidneyCareAppointment` puts name, patient id and time as separate conditions on `appointments.*`. Each may hold of a different slot. `findOne` then returns the first such document, and the cancel loop searches only that one | Two documents dated 2025-03-01. Pune holds Ann/P1 at 09:00 and Bob/P2 at 10:00; Mumbai holds Ann/P1 at 10:00. Cancelling Ann, P1, 2025-03-01, 10:00 selects Pune, finds no booking there and replies "No matching appointment found." | The booking of Ann at 10:00 on that date is cancelled, as an element-wise (`$elemMatch`) query would select the document holding it | medium, not executed | KidneyCare.CancelMissesBookingInLaterDocument | KidneyCare.CancelBooking |

=== FILE: calendar_date.dfy ===
/** Calendar dates as the kidney-care bot handles them: the `parseDate` helper,
    which turns "today", "tomorrow" or an ISO date into a `YYYY-MM-DD` string. */
module CalendarDate {
  import opened JsCore

  /** A proleptic Gregorian calendar date. */
  datatype Date = Date(year: nat, month: int, day: int)

  predicate IsLeapYear(y: nat) {
    (y % 4 == 0 && y % 100 != 0) || y % 400 == 0
  }

  function DaysInMonth(y: nat, m: int): int
    requires 1 <= m <= 12
  {
    if m == 2 then (if IsLeapYear(y) then 29 else 28)
    else if m == 4 || m == 6 || m == 9 || m == 11 then 30
    else 31
  }

  predicate Valid(d: Date) {
    1 <= d.month <= 12 && 1 <= d.day <= DaysInMonth(d.year, d.month)
  }

  /** Chronological order. */
  predicate Before(a: Date, b: Date) {
    || a.year < b.year
    || (a.year == b.year && a.month < b.month)
    || (a.year == b.year && a.month == b.month && a.day < b.day)
  }

  /** The calendar day after `d` (`plus({ days: 1 })`). */
  function NextDay(d: Date): (r: Date)
    requires Valid(d)
    ensures Valid(r) && Before(d, r)
  {
    if d.day < DaysInMonth(d.year, d.month) then Date(d.year, d.month, d.day + 1)
    else if d.month < 12 then Date(d.year, d.month + 1, 1)
    else Date(d.year + 1, 1, 1)
  }

  /** No valid date lies strictly between a date and the next one. */
  lemma NextDayIsSuccessor(d: Date, x: Date)
    requires Valid(d) && Valid(x) && Before(d, x)
    ensures x == NextDay(d) || Before(NextDay(d), x)
  {
    if d.day < DaysInMonth(d.year, d.month) {
    } else if d.month < 12 {
      assert x.year > d.year || x.month > d.month;
    } else {
      assert x.year > d.year;
    }
  }

  // ---------------------------------------------------------------------------
  // YYYY-MM-DD text

  function DigitChar(n: int): char
    requires 0 <= n < 10
  {
    ('0' as int + n) as char
  }

  predicate IsDigit(c: char) {
    '0' <= c <= '9'
  }

  predicate AllDigits(s: string) {
    forall i :: 0 <= i < |s| ==> IsDigit(s[i])
  }

  /** The decimal digits of `n`, most significant first, without leading zeros. */
  function Digits(n: nat): (s: string)
    ensures |s| >= 1 && AllDigits(s)
  {
    if n < 10 then [DigitChar(n)] else Digits(n / 10) + [DigitChar(n % 10)]
  }

  /** `n` left-padded with zeros to at least `width` digits (`padStart(width, "0")`). */
  function Padded(n: nat, width: nat): (s: string)
    ensures |s| >= width && AllDigits(s)
  {
    var ds := Digits(n);
    if |ds| >= width then ds else seq(width - |ds|, _ => '0') + ds
  }

  /** The value of a string of decimal digits. */
  function DigitsValue(s: string): nat
    requires AllDigits(s)
  {
    if |s| == 0 then 0
    else
      assert IsDigit(s[|s| - 1]);
      DigitsValue(s[..|s| - 1]) * 10 + (s[|s| - 1] as int - '0' as int)
  }

  lemma {:induction false} DigitsRoundTrip(n: nat)
    ensures DigitsValue(Digits(n)) == n
  {
    if n >= 10 {
      var s := Digits(n);
      assert s[..|s| - 1] == Digits(n / 10);
      DigitsRoundTrip(n / 10);
    }
  }

  lemma {:induction false} LeadingZerosValue(k: nat, s: string)
    requires AllDigits(s)
    ensures AllDigits(seq(k, _ => '0') + s)
    ensures DigitsValue(seq(k, _ => '0') + s) == DigitsValue(s)
  {
    var z := seq(k, _ => '0');
    if |s| == 0 {
      assert z + s == z;
      ZerosValue(k);
    } else {
      var t := z + s;
      assert t[..|t| - 1] == z + s[..|s| - 1];
      LeadingZerosValue(k, s[..|s| - 1]);
    }
  }

  lemma {:induction false} ZerosValue(k: nat)
    ensures DigitsValue(seq(k, _ => '0')) == 0
  {
    if k > 0 {
      assert seq(k, _ => '0')[..k - 1] == seq(k - 1, _ => '0');
      ZerosValue(k - 1);
    }
  }

  lemma PaddedRoundTrip(n: nat, width: nat)
    ensures DigitsValue(Padded(n, width)) == n
  {
    DigitsRoundTrip(n);
    var ds := Digits(n);
    if |ds| < width {
      LeadingZerosValue(width - |ds|, ds);
    }
  }

  function Pow10(k: nat): nat {
    if k == 0 then 1 else 10 * Pow10(k - 1)
  }

  /** `k` digits hold a value below 10^k. */
  lemma {:induction false} DigitsValueBelow(s: string)
    requires AllDigits(s)
    ensures DigitsValue(s) < Pow10(|s|)
  {
    if |s| > 0 {
      DigitsValueBelow(s[..|s| - 1]);
    }
  }

  /** The digits of a positive value do not start with a zero. */
  lemma {:induction false} DigitsLead(n: nat)
    requires n >= 1
    ensures Digits(n)[0] != '0'
  {
    if n >= 10 {
      DigitsLead(n / 10);
    }
  }

  /** A value below 10^k has at most `k` digits. */
  lemma {:induction false} DigitsFit(n: nat, k: nat)
    requires k >= 1 && n < Pow10(k)
    ensures |Digits(n)| <= k
  {
    if n >= 10 {
      assert k >= 2;
      DigitsFit(n / 10, k - 1);
    }
  }

  /** The year as `toISODate()` writes it: four digits up to 9999, beyond that a '+' and at
      least six digits. */
  function IsoYear(y: nat): (s: string)
    ensures |s| >= 4
  {
    if y <= 9999 then Padded(y, 4) else "+" + Padded(y, 6)
  }

  /** `toISODate()`: the year, two-digit month and day, joined by '-'. */
  function IsoDate(d: Date): string
    requires Valid(d)
  {
    IsoYear(d.year) + "-" + Padded(d.month, 2) + "-" + Padded(d.day, 2)
  }

  /** Reads back the year field: exactly four digits, or '+' and six digits above 9999, or more
      digits without a leading zero. */
  function ReadIsoYear(y: string): (r: Option<nat>)
    ensures r.Some? ==> (r.value <= 9999 <==> |y| == 4) && (r.value > 9999 ==> |y| >= 7 && y[0] == '+')
    ensures r.Some? && |y| > 7 ==> y[1] != '0'
  {
    if |y| == 4 && AllDigits(y) then
      DigitsValueBelow(y);
      Some(DigitsValue(y))
    else if |y| >= 7 && y[0] == '+' && (|y| == 7 || y[1] != '0') && AllDigits(y[1..]) && DigitsValue(y[1..]) > 9999 then
      Some(DigitsValue(y[1..]))
    else None
  }

  /** Reads back an ISO date string in exactly the shape `IsoDate` writes. */
  function ReadIsoDate(s: string): (r: Option<Date>)
    ensures r.Some? ==> Valid(r.value)
    ensures r.Some? ==> (r.value.year <= 9999 <==> |s| == 10) && (r.value.year > 9999 ==> |s| >= 13 && s[0] == '+')
  {
    if |s| < 10 || s[|s| - 6] != '-' || s[|s| - 3] != '-' then None
    else
      var y, m, d := s[..|s| - 6], s[|s| - 5..|s| - 3], s[|s| - 2..];
      var year := ReadIsoYear(y);
      if year.Some? && IsDigit(m[0]) && IsDigit(m[1]) && IsDigit(d[0]) && IsDigit(d[1]) then
        var date := Date(year.value, DigitsValue(m), DigitsValue(d));
        if Valid(date) then Some(date) else None
      else None
  }

  lemma IsoYearRoundTrip(y: nat)
    ensures ReadIsoYear(IsoYear(y)) == Some(y)
  {
    if y <= 9999 {
      DigitsFit(y, 4);
      PaddedRoundTrip(y, 4);
    } else {
      var p := Padded(y, 6);
      assert ("+" + p)[1..] == p;
      PaddedRoundTrip(y, 6);
      if |Digits(y)| > 6 {
        DigitsLead(y);
      }
    }
  }

  lemma TwoDigits(n: int)
    requires 1 <= n <= 31
    ensures |Padded(n, 2)| == 2
  {
    if n >= 10 {
      assert Digits(n) == Digits(n / 10) + [DigitChar(n % 10)];
    }
  }

  /** The ISO text of a valid date reads back as that date. */
  lemma IsoDateRoundTrip(d: Date)
    requires Valid(d)
    ensures ReadIsoDate(IsoDate(d)) == Some(d)
  {
    IsoDateFields(d);
    IsoYearRoundTrip(d.year);
    PaddedRoundTrip(d.month, 2);
    PaddedRoundTrip(d.day, 2);
  }

  /** Where the ISO text of a valid date puts its separators and fields. */
  lemma IsoDateFields(d: Date)
    requires Valid(d)
    ensures var s := IsoDate(d);
      && |s| >= 10 && s[|s| - 6] == '-' && s[|s| - 3] == '-'
      && s[..|s| - 6] == IsoYear(d.year) && s[|s| - 5..|s| - 3] == Padded(d.month, 2) && s[|s| - 2..] == Padded(d.day, 2)
  {
    var y, m, dd := IsoYear(d.year), Padded(d.month, 2), Padded(d.day, 2);
    TwoDigits(d.month);
    TwoDigits(d.day);
    var s := IsoDate(d);
    assert s == y + "-" + m + "-" + dd;
    assert s[..|s| - 6] == y;
    assert s[|s| - 5..|s| - 3] == m;
    assert s[|s| - 2..] == dd;
  }

  // ---------------------------------------------------------------------------
  // parseDate

  const InvalidDateMessage := "Invalid date format. Use 'today', 'tomorrow', or 'YYYY-MM-DD'"

  /** `parseDate(relativeDate)`. `today` is the clock's date and `isoVerdict` what
      the ISO parser makes of `relativeDate` (None when it is not a valid date).
      The parser's own error is replaced by `InvalidDateMessage`. */
  function ParseDate(relativeDate: string, today: Date, isoVerdict: Option<Date>): (r: Result<string, string>)
    requires Valid(today) && (isoVerdict.Some? ==> Valid(isoVerdict.value))
    ensures r.Err? ==> r.error == InvalidDateMessage
    ensures r.Ok? ==> ReadIsoDate(r.value).Some?
    ensures r.Ok? ==> var d := ReadIsoDate(r.value).value;
      && (d.year <= 9999 ==> |r.value| == 10)
      && (d.year > 9999 ==> |r.value| >= 13 && r.value[0] == '+')
    ensures Lower(relativeDate) == "today" ==> r.Ok? && ReadIsoDate(r.value) == Some(today)
    ensures Lower(relativeDate) == "tomorrow" ==> r.Ok? && ReadIsoDate(r.value) == Some(NextDay(today))
    ensures Lower(relativeDate) != "today" && Lower(relativeDate) != "tomorrow" ==>
      (r.Ok? <==> isoVerdict.Some?) && (r.Ok? ==> ReadIsoDate(r.value) == isoVerdict)
  {
    if Lower(relativeDate) == "today" then
      IsoDateRoundTrip(today);
      Ok(IsoDate(today))
    else if Lower(relativeDate) == "tomorrow" then
      IsoDateRoundTrip(NextDay(today));
      Ok(IsoDate(NextDay(today)))
    else if isoVerdict.Some? then
      IsoDateRoundTrip(isoVerdict.value);
      Ok(IsoDate(isoVerdict.value))
    else Err(InvalidDateMessage)
  }
}

=== FILE: hospital_assistant.dfy ===
/** The hospital assistant: the session and appointment tables, the tools the agent calls on
    them, and the phase routing of `processInput` (which conversation log a message joins and
    which prompt branch answers it). The language model is outside: what it extracts, the
    sentiment it reports and the reply it writes are inputs. */
module HospitalAssistant {
  import opened JsCore

  /** A `userData` object: present keys map to a string or to `null`; absent keys are `undefined`. */
  type UserData = map<string, Option<string>>

  /** The value of a key, `undefined` and `null` alike as None. */
  function Get(u: UserData, key: string): Option<string> {
    if key in u && u[key].Some? then u[key] else None
  }

  /** A chat entry; `sentiment` is the JSON text of the sentiment stored with symptom answers. */
  datatype Entry = Entry(role: string, content: string, sentiment: Option<string>)

  datatype Session = Session(chatHistory: seq<Entry>, userData: UserData, symptomCapture: seq<Entry>, paymentChat: seq<Entry>)

  type Sessions = map<string, Session>
  type Appointments = map<string, UserData>

  // ---------------------------------------------------------------------------
  // Tools

  /** The fields an appointment needs before it can be confirmed. */
  const InstructionFields := ["doctorName", "department", "userLanguage", "appointmentTime"]

  /** `areInstructionsComplete`: every required field holds a non-empty value. */
  function AreInstructionsComplete(u: UserData): (b: bool)
    ensures b <==> forall f :: f in InstructionFields ==> Truthy(Get(u, f))
  {
    Truthy(Get(u, "doctorName")) && Truthy(Get(u, "department")) && Truthy(Get(u, "userLanguage")) && Truthy(Get(u, "appointmentTime"))
  }

  const DeletedMessage := "Data deleted successfully"

  /** `removeAppointment`: forgets the appointment and the session of `id`. */
  function RemoveAppointment(sessions: Sessions, appointments: Appointments, id: string): (r: (string, Sessions, Appointments))
    ensures r.0 == DeletedMessage
    ensures r.1.Keys == sessions.Keys - {id} && r.2.Keys == appointments.Keys - {id}
    ensures forall k :: k in r.1 ==> r.1[k] == sessions[k]
    ensures forall k :: k in r.2 ==> r.2[k] == appointments[k]
  {
    (DeletedMessage, sessions - {id}, appointments - {id})
  }

  /** `changeLanguage`: sets the language of an existing appointment only; answers true. */
  function ChangeLanguage(appointments: Appointments, id: string, language: Option<string>): (r: (bool, Appointments))
    ensures r.0
    ensures r.1.Keys == appointments.Keys
    ensures forall k :: k in appointments && k != id ==> r.1[k] == appointments[k]
    ensures id in appointments ==>
      && Get(r.1[id], "userLanguage") == language
      && forall key :: key != "userLanguage" ==> Get(r.1[id], key) == Get(appointments[id], key)
  {
    if id in appointments then (true, appointments[id := appointments[id]["userLanguage" := language]])
    else (true, appointments)
  }

  const ConfirmedMessage := "Great news! Your appointment is all confirmed for [slot] with [doctor] in [department], OPD Block B. I'll send you a gentle reminder [dateTime] with some helpful preparation tips. You want to make payment now or later ?"

  /** What `confirmAppointment` answers: the confirmation text, or `false`. */
  datatype Confirmation = Confirmed(text: string) | NotConfirmed

  /** `confirmAppointment`. Reading the user data of a missing session throws. */
  function ConfirmAppointment(sessions: Sessions, appointments: Appointments, id: string): (r: Result<(Confirmation, Appointments), string>)
    ensures id !in sessions <==> r.Err?
    ensures r.Ok? ==>
      && (r.value.0.Confirmed? <==> AreInstructionsComplete(sessions[id].userData))
      && (r.value.0.Confirmed? ==> r.value.0.text == ConfirmedMessage && r.value.1 == appointments[id := sessions[id].userData])
      && (r.value.0.NotConfirmed? ==> r.value.1 == appointments)
  {
    if id !in sessions then Err("TypeError: Cannot read properties of undefined (reading 'userData')")
    else
      var u := sessions[id].userData;
      if AreInstructionsComplete(u) then Ok((Confirmed(ConfirmedMessage), appointments[id := u]))
      else Ok((NotConfirmed, appointments))
  }

  /** `updateAppointmentDetails`: overwrites an existing appointment with the session's user data;
      never creates one. Throws when the appointment exists but the session does not. */
  function UpdateAppointmentDetails(sessions: Sessions, appointments: Appointments, id: string): (r: Result<(bool, Appointments), string>)
    ensures r.Err? <==> id in appointments && id !in sessions
    ensures r.Ok? ==> r.value.0 && r.value.1.Keys == appointments.Keys
    ensures r.Ok? ==> forall k :: k in appointments && k != id ==> r.value.1[k] == appointments[k]
    ensures r.Ok? && id in appointments ==> r.value.1[id] == sessions[id].userData
  {
    if id in appointments then
      if id in sessions then Ok((true, appointments[id := sessions[id].userData]))
      else Err("TypeError: Cannot read properties of undefined (reading 'userData')")
    else Ok((true, appointments))
  }

  /** `checkAppointment`: the stored appointment, or `null`. */
  function CheckAppointment(appointments: Appointments, id: string): (r: Option<UserData>)
    ensures r.Some? <==> id in appointments
    ensures r.Some? ==> r.value == appointments[id]
  {
    if id in appointments then Some(appointments[id]) else None
  }

  /** A confirmed appointment is what checking it returns, and it is complete. */
  lemma ConfirmThenCheck(sessions: Sessions, appointments: Appointments, id: string)
    requires id in sessions && AreInstructionsComplete(sessions[id].userData)
    ensures var r := ConfirmAppointment(sessions, appointments, id);
      && r.Ok? && r.value.0.Confirmed?
      && CheckAppointment(r.value.1, id) == Some(sessions[id].userData)
      && AreInstructionsComplete(CheckAppointment(r.value.1, id).value)
  {
  }

  /** After removal nothing is found, and removing again changes nothing. */
  lemma RemoveThenCheck(sessions: Sessions, appointments: Appointments, id: string)
    ensures var r := RemoveAppointment(sessions, appointments, id);
      && CheckAppointment(r.2, id).None?
      && RemoveAppointment(r.1, r.2, id) == r
  {
    assert (sessions - {id}) - {id} == sessions - {id};
    assert (appointments - {id}) - {id} == appointments - {id};
  }

  // ---------------------------------------------------------------------------
  // processInput

  /** The prompt branch that answers, in the order they are tried. */
  datatype Branch =
    | Booking          // no appointment
    | Payment          // an appointment not paid for
    | CheckingIn       // paid, not checked in
    | SymptomIntake    // paid and checked in

  /** The log the user's message joins. */
  datatype Log = ChatHistory | PaymentChat | SymptomCapture

  predicate CheckedIn(appointment: UserData) {
    Get(appointment, "checkIn") == Some("check-in")
  }

  predicate Paid(appointment: UserData) {
    Get(appointment, "paymentConfirmed") == Some("paid")
  }

  /** Where the user's message is logged (the first `if` of `processInput`). */
  function InputLog(appointment: Option<UserData>): (l: Log)
    ensures l == ChatHistory <==> appointment.None?
    ensures l == PaymentChat <==> appointment.Some? && !CheckedIn(appointment.value)
    ensures l == SymptomCapture <==> appointment.Some? && CheckedIn(appointment.value)
  {
    if appointment.None? then ChatHistory
    else if !CheckedIn(appointment.value) then PaymentChat
    else SymptomCapture
  }

  /** Which branch answers (the second `if` chain of `processInput`). */
  function BranchOf(appointment: Option<UserData>): (b: Branch)
    ensures b == Booking <==> appointment.None?
    ensures b == Payment <==> appointment.Some? && !Paid(appointment.value)
    ensures b == CheckingIn <==> appointment.Some? && Paid(appointment.value) && !CheckedIn(appointment.value)
    ensures b == SymptomIntake <==> appointment.Some? && Paid(appointment.value) && CheckedIn(appointment.value)
  {
    if appointment.None? then Booking
    else if !Paid(appointment.value) then Payment
    else if !CheckedIn(appointment.value) then CheckingIn
    else SymptomIntake
  }

  /** The log the branch's reply joins. */
  function ReplyLog(b: Branch): Log {
    match b
    case Booking => ChatHistory
    case Payment => PaymentChat
    case CheckingIn => PaymentChat
    case SymptomIntake => SymptomCapture
  }

  /** Message and reply go to the same log except for a checked-in appointment that is not paid:
      the message joins the symptom log while the payment branch answers into the payment log. */
  lemma LogsAgreeUnlessCheckedInUnpaid(appointment: Option<UserData>)
    ensures InputLog(appointment) != ReplyLog(BranchOf(appointment)) <==>
      appointment.Some? && CheckedIn(appointment.value) && !Paid(appointment.value)
  {
  }

  /** `xs.slice(-n)` */
  function LastN<T>(xs: seq<T>, n: nat): (r: seq<T>)
    ensures |r| == if |xs| < n then |xs| else n
    ensures r == xs[|xs| - |r|..]
  {
    if |xs| <= n then xs else xs[|xs| - n..]
  }

  /** `xs.slice(0, -1)` */
  function DropLast<T>(xs: seq<T>): (r: seq<T>)
    ensures |xs| > 0 ==> r + [xs[|xs| - 1]] == xs
    ensures |xs| == 0 ==> r == []
  {
    if |xs| == 0 then [] else xs[..|xs| - 1]
  }

  const DefaultSentiment := "{\"polarity\":\"neutral\",\"score\":0}"
  const SentimentSuffix := ". Sentiment analysis of this input is:: "

  /** `missingFields`: the required fields that are falsy, in order. */
  function MissingFields(u: UserData): (r: seq<string>)
    ensures forall f :: f in r <==> (f == "doctorName" || f == "userLanguage") && !Truthy(Get(u, f))
    ensures |r| <= 2 && (|r| == 2 ==> r == ["doctorName", "userLanguage"])
  {
    (if Truthy(Get(u, "doctorName")) then [] else ["doctorName"])
    + (if Truthy(Get(u, "userLanguage")) then [] else ["userLanguage"])
  }

  /** The messages handed to the agent as history, after the system prompt. */
  function ContextOf(s: Session, b: Branch): seq<Entry> {
    match b
    case Booking => LastN(DropLast(s.chatHistory), 6)
    case Payment => LastN(DropLast(s.paymentChat), 3)
    case CheckingIn => LastN(DropLast(s.paymentChat), 3)
    case SymptomIntake => Replayed(DropLast(s.symptomCapture))
  }

  /** Symptom answers as replayed to the agent, in order. */
  function Replayed(entries: seq<Entry>): (r: seq<Entry>)
    ensures |r| == |entries| && forall k :: 0 <= k < |r| ==> r[k] == WithSentiment(entries[k])
  {
    if |entries| == 0 then [] else [WithSentiment(entries[0])] + Replayed(entries[1..])
  }

  /** The JSON texts of the falsy values `JSON.parse` can yield (`JSON.stringify` writes -0 as 0). */
  predicate FalsyJson(t: string) {
    t == "null" || t == "false" || t == "0" || t == "\"\""
  }

  /** A symptom answer as replayed to the agent: a truthy sentiment is appended to the text. */
  function WithSentiment(e: Entry): (r: Entry)
    ensures r.role == e.role && r.sentiment.None? && e.content <= r.content
    ensures r.content == e.content <==> e.sentiment.None? || FalsyJson(e.sentiment.value)
    ensures e.sentiment.Some? && !FalsyJson(e.sentiment.value) ==>
      r.content == e.content + " Sentiment Ananlysis Data:: " + e.sentiment.value
  {
    if e.sentiment.Some? && !FalsyJson(e.sentiment.value) then
      var suffix := " Sentiment Ananlysis Data:: " + e.sentiment.value;
      assert (e.content + suffix)[..|e.content|] == e.content;
      Entry(e.role, e.content + suffix, None)
    else Entry(e.role, e.content, None)
  }

  /** The object `processInput` resolves to. */
  datatype Output = Output(response: string, query: string, tokensConsumed: string, error: bool)

  /** One turn: the answer, the branch that produced it, the fields reported missing, the history the
      agent saw, and the session stored afterwards. */
  datatype Turn = Turn(output: Output, branch: Branch, missing: seq<string>, context: seq<Entry>, session: Session)

  function Append(s: Session, log: Log, e: Entry): (r: Session)
    ensures r.userData == s.userData
    ensures LogOf(r, log) == LogOf(s, log) + [e]
    ensures forall other :: other != log ==> LogOf(r, other) == LogOf(s, other)
  {
    match log
    case ChatHistory => s.(chatHistory := s.chatHistory + [e])
    case PaymentChat => s.(paymentChat := s.paymentChat + [e])
    case SymptomCapture => s.(symptomCapture := s.symptomCapture + [e])
  }

  function LogOf(s: Session, log: Log): seq<Entry> {
    match log
    case ChatHistory => s.chatHistory
    case PaymentChat => s.paymentChat
    case SymptomCapture => s.symptomCapture
  }

  /** The session a turn starts from: the stored one, or a fresh one holding only the session id. */
  function Opening(sessions: Sessions, id: string): Session {
    if id in sessions then sessions[id] else Session([], map["sessionId" := Some(id)], [], [])
  }

  /** The log as it stands before the user's message joins it: an empty payment log is first
      seeded with the last four chat messages. */
  function Seed(s: Session, log: Log): seq<Entry> {
    if log == PaymentChat && |s.paymentChat| == 0 then LastN(s.chatHistory, 4) else LogOf(s, log)
  }

  /** The sentiment stored with a symptom answer: what the model reports once the symptom log has
      a question to answer, and the neutral default otherwise or when its reply does not parse. */
  function Sentiment(s: Session, analysed: Option<string>): string {
    if |s.symptomCapture| > 0 && analysed.Some? then analysed.value else DefaultSentiment
  }

  /** The entry the user's message becomes; symptom answers carry their sentiment. */
  function UserEntry(s: Session, log: Log, userInput: string, analysed: Option<string>): Entry {
    Entry("user", userInput, if log == SymptomCapture then Some(Sentiment(s, analysed)) else None)
  }

  /** The first `if` of `processInput`: the user's message joins `log`, and the query the agent gets. */
  function Logged(s: Session, log: Log, userInput: string, analysed: Option<string>): (r: (Session, string))
    ensures LogOf(r.0, log) == Seed(s, log) + [UserEntry(s, log, userInput, analysed)]
    ensures forall other :: other != log ==> LogOf(r.0, other) == LogOf(s, other)
    ensures r.0.userData == s.userData
    ensures log == SymptomCapture ==> r.1 == userInput + SentimentSuffix + Sentiment(s, analysed)
    ensures log != SymptomCapture ==> r.1 == userInput
  {
    var e := UserEntry(s, log, userInput, analysed);
    match log
    case ChatHistory => (Append(s, ChatHistory, e), userInput)
    case PaymentChat => (Append(s.(paymentChat := Seed(s, PaymentChat)), PaymentChat, e), userInput)
    case SymptomCapture => (Append(s, SymptomCapture, e), userInput + SentimentSuffix + Sentiment(s, analysed))
  }

  /** One turn of `processInput` on the session `before`, given the appointment stored for it.
      `extracted` is the object parsed from the model's extraction (empty when it is not JSON),
      `analysed` the sentiment the model reports for a symptom answer, as `JSON.stringify` writes
      the value its reply parses to (None when the reply does not parse) and `reply` the agent's answer. */
  function Respond(before: Session, appointment: Option<UserData>, userInput: string,
                   extracted: UserData, analysed: Option<string>, reply: string): (t: Turn)
    ensures t.branch == BranchOf(appointment)
    ensures t.session.userData == before.userData + extracted
    ensures t.missing == MissingFields(t.session.userData)
    ensures t.output.response == reply && t.output.tokensConsumed == "400" && !t.output.error
    ensures InputLog(appointment) == SymptomCapture <==> t.output.query != userInput
    ensures t.output.query == if InputLog(appointment) == SymptomCapture then userInput + SentimentSuffix + Sentiment(before, analysed)
                              else userInput
  {
    var logged := Logged(before, InputLog(appointment), userInput, analysed);
    var merged := logged.0.(userData := before.userData + extracted);
    var branch := BranchOf(appointment);
    Turn(Output(reply, logged.1, "400", false), branch, MissingFields(merged.userData), ContextOf(merged, branch),
         Append(merged, ReplyLog(branch), Entry("assistant", reply, None)))
  }

  /** The turn appends the user's message to its log (seeding an empty payment log with the last four
      chat messages) and the reply to the branch's log; every other log is unchanged. */
  lemma TurnLogs(before: Session, appointment: Option<UserData>, userInput: string,
                 extracted: UserData, analysed: Option<string>, reply: string)
    ensures var t := Respond(before, appointment, userInput, extracted, analysed, reply);
            var input, answer := InputLog(appointment), ReplyLog(t.branch);
            var heard, said := UserEntry(before, input, userInput, analysed), Entry("assistant", reply, None);
      && (input == answer ==> LogOf(t.session, input) == Seed(before, input) + [heard, said])
      && (input != answer ==> LogOf(t.session, input) == Seed(before, input) + [heard]
                              && LogOf(t.session, answer) == LogOf(before, answer) + [said])
      && forall other :: other != input && other != answer ==> LogOf(t.session, other) == LogOf(before, other)
  {
    RespondStores(before, appointment, userInput, extracted, analysed, reply);
    StoredLogs(before, InputLog(appointment), ReplyLog(BranchOf(appointment)), userInput, extracted, analysed, reply);
  }

  /** The logs of the session stored after the message joined `input` and the reply joined `answer`. */
  lemma StoredLogs(before: Session, input: Log, answer: Log, userInput: string,
                   extracted: UserData, analysed: Option<string>, reply: string)
    ensures var after := Append(Logged(before, input, userInput, analysed).0.(userData := before.userData + extracted),
                                answer, Entry("assistant", reply, None));
            var heard, said := UserEntry(before, input, userInput, analysed), Entry("assistant", reply, None);
      && (input == answer ==> LogOf(after, input) == Seed(before, input) + [heard, said])
      && (input != answer ==> LogOf(after, input) == Seed(before, input) + [heard]
                              && LogOf(after, answer) == LogOf(before, answer) + [said])
      && forall other :: other != input && other != answer ==> LogOf(after, other) == LogOf(before, other)
  {
    var s := Logged(before, input, userInput, analysed).0;
    var merged := s.(userData := before.userData + extracted);
    var heard, said := UserEntry(before, input, userInput, analysed), Entry("assistant", reply, None);
    var after := Append(merged, answer, said);
    assert LogOf(merged, input) == Seed(before, input) + [heard];
    assert LogOf(after, answer) == LogOf(merged, answer) + [said];
    if input == answer {
      assert LogOf(after, input) == Seed(before, input) + [heard] + [said];
    } else {
      assert LogOf(after, input) == LogOf(merged, input);
      assert LogOf(merged, answer) == LogOf(before, answer);
    }
    forall other | other != input && other != answer
      ensures LogOf(after, other) == LogOf(before, other)
    {
      assert LogOf(merged, other) == LogOf(s, other);
    }
  }

  /** The session a turn stores: the message logged, the extraction merged, the reply appended. */
  lemma RespondStores(before: Session, appointment: Option<UserData>, userInput: string,
                      extracted: UserData, analysed: Option<string>, reply: string)
    ensures Respond(before, appointment, userInput, extracted, analysed, reply).session
         == Append(Logged(before, InputLog(appointment), userInput, analysed).0.(userData := before.userData + extracted),
                   ReplyLog(BranchOf(appointment)), Entry("assistant", reply, None))
  {
  }

  /** The history the agent sees is the branch's log as it stood before this turn's message: the
      last six chat messages, the last three payment messages or every symptom answer. When the
      message went to the symptom log but the payment branch answers, the latest payment message is
      dropped instead. */
  lemma ContextPrecedesMessage(before: Session, appointment: Option<UserData>, userInput: string,
                               extracted: UserData, analysed: Option<string>, reply: string)
    ensures var t := Respond(before, appointment, userInput, extracted, analysed, reply);
      && (t.branch == Booking ==> t.context == LastN(before.chatHistory, 6))
      && (t.branch in {Payment, CheckingIn} && InputLog(appointment) == PaymentChat ==>
            t.context == LastN(Seed(before, PaymentChat), 3))
      && (t.branch == Payment && InputLog(appointment) == SymptomCapture ==>
            t.context == LastN(DropLast(before.paymentChat), 3))
      && (t.branch == SymptomIntake ==> t.context == Replayed(before.symptomCapture))
  {
    var input := InputLog(appointment);
    var heard := UserEntry(before, input, userInput, analysed);
    var s := Logged(before, input, userInput, analysed).0;
    var merged := s.(userData := before.userData + extracted);
    var branch := BranchOf(appointment);
    assert Respond(before, appointment, userInput, extracted, analysed, reply).context == ContextOf(merged, branch);
    assert LogOf(merged, input) == Seed(before, input) + [heard];
    assert DropLast(LogOf(merged, input)) == Seed(before, input);
  }

  /** `processInput(id, userInput)`: the turn, and the session table with the turn's session stored under `id`. */
  function ProcessInput(sessions: Sessions, appointments: Appointments, id: string, userInput: string,
                        extracted: UserData, analysed: Option<string>, reply: string): (r: (Turn, Sessions))
    ensures r.1.Keys == sessions.Keys + {id}
    ensures forall k :: k in sessions && k != id ==> r.1[k] == sessions[k]
    ensures r.1[id] == r.0.session
  {
    var t := Respond(Opening(sessions, id), CheckAppointment(appointments, id), userInput, extracted, analysed, reply);
    (t, sessions[id := t.session])
  }

  /** A session's first turn keeps the session id next to whatever the extraction found. */
  lemma FirstTurnData(sessions: Sessions, appointments: Appointments, id: string, userInput: string,
                      extracted: UserData, analysed: Option<string>, reply: string)
    requires id !in sessions
    ensures ProcessInput(sessions, appointments, id, userInput, extracted, analysed, reply).1[id].userData
            == map["sessionId" := Some(id)] + extracted
  {
    var before := Opening(sessions, id);
    assert before.userData == map["sessionId" := Some(id)];
    var t := Respond(before, CheckAppointment(appointments, id), userInput, extracted, analysed, reply);
    assert ProcessInput(sessions, appointments, id, userInput, extracted, analysed, reply).1[id] == t.session;
  }
}

=== FILE: js_core.dfy ===
/** Small pieces of JavaScript semantics that several of the bots rely on:
    optional values (null / undefined), error results, truthiness of strings,
    `toLowerCase`, `trim` and string ordering. */
module JsCore {

  /** A value that may be absent (`null` or `undefined` in the bots). */
  datatype Option<+T> = None | Some(value: T) {
    function GetOr(default: T): T {
      match this
      case Some(v) => v
      case None => default
    }
  }

  /** The outcome of a call that may throw. */
  datatype Result<+R, +E> = Ok(value: R) | Err(error: E)

  /** JavaScript truthiness of an optional string: `null`, `undefined` and `""` are falsy. */
  predicate Truthy(s: Option<string>) {
    s.Some? && s.value != ""
  }

  /** `String.prototype.toLowerCase` on one character, for the ASCII letters. */
  function LowerChar(c: char): (r: char)
    ensures 'A' <= c <= 'Z' ==> r as int == c as int + 32
    ensures !('A' <= c <= 'Z') ==> r == c
  {
    if 'A' <= c <= 'Z' then (c as int + 32) as char else c
  }

  /** `String.prototype.toLowerCase`, for the ASCII letters. */
  function Lower(s: string): (r: string)
    ensures |r| == |s|
    ensures forall i :: 0 <= i < |s| ==> r[i] == LowerChar(s[i])
  {
    if |s| == 0 then "" else [LowerChar(s[0])] + Lower(s[1..])
  }

  /** Two strings compare equal after `toLowerCase` on both sides. */
  predicate EqualsIgnoringCase(a: string, b: string) {
    Lower(a) == Lower(b)
  }

  lemma {:induction false} LowerIdempotent(s: string)
    ensures Lower(Lower(s)) == Lower(s)
  {
    if |s| > 0 {
      LowerIdempotent(s[1..]);
      assert Lower(s)[1..] == Lower(s[1..]);
    }
  }

  /** The characters JavaScript's `trim` removes (WhiteSpace and LineTerminator of ECMA-262). */
  predicate IsJsWhitespace(c: char) {
    || c == ' ' || c == '\t' || c == '\n' || c == '\r'
    || c == '\U{000B}' || c == '\U{000C}' || c == '\U{00A0}' || c == '\U{FEFF}'
    || c == '\U{1680}' || ('\U{2000}' <= c <= '\U{200A}') || c == '\U{2028}' || c == '\U{2029}'
    || c == '\U{202F}' || c == '\U{205F}' || c == '\U{3000}'
  }

  predicate AllWhitespace(s: string) {
    forall i :: 0 <= i < |s| ==> IsJsWhitespace(s[i])
  }

  /** `String.prototype.trimEnd`. */
  function TrimEnd(s: string): (r: string)
    ensures |r| <= |s| && r == s[..|r|]
    ensures AllWhitespace(s[|r|..])
    ensures |r| == 0 || !IsJsWhitespace(r[|r| - 1])
  {
    if |s| == 0 then ""
    else if IsJsWhitespace(s[|s| - 1]) then
      var r := TrimEnd(s[..|s| - 1]);
      assert s[..|s| - 1][..|r|] == s[..|r|];
      assert s[|r|..] == s[..|s| - 1][|r|..] + [s[|s| - 1]];
      r
    else s
  }

  /** `String.prototype.trimStart`. */
  function TrimStart(s: string): (r: string)
    ensures |r| <= |s| && r == s[|s| - |r|..]
    ensures AllWhitespace(s[..|s| - |r|])
    ensures |r| == 0 || !IsJsWhitespace(r[0])
  {
    if |s| == 0 then ""
    else if IsJsWhitespace(s[0]) then TrimStart(s[1..])
    else s
  }

  /** `String.prototype.trim`. */
  function Trim(s: string): string {
    TrimEnd(TrimStart(s))
  }

  /** String comparison `a <= b` as JavaScript and MongoDB order strings: character by character, a proper
      prefix first. Characters here are code points; JavaScript compares UTF-16 code units, which orders
      characters outside the Basic Multilingual Plane differently. */
  predicate LexLe(a: string, b: string) {
    if |a| == 0 then true
    else if |b| == 0 then false
    else if a[0] != b[0] then a[0] < b[0]
    else LexLe(a[1..], b[1..])
  }

  /** `Array.prototype.findIndex`, with None for -1: the first position whose element satisfies `p`. */
  function FindIndex<T>(s: seq<T>, p: T -> bool): (r: Option<nat>)
    ensures r.Some? ==> r.value < |s| && p(s[r.value])
    ensures r.Some? ==> forall k :: 0 <= k < r.value ==> !p(s[k])
    ensures r.None? ==> forall k :: 0 <= k < |s| ==> !p(s[k])
  {
    if |s| == 0 then None
    else if p(s[0]) then Some(0)
    else
      var r := FindIndex(s[1..], p);
      if r.Some? then Some(r.value + 1) else None
  }

  /** `Array.prototype.filter`. */
  function Filter<T(!new)>(s: seq<T>, p: T -> bool): (r: seq<T>)
    ensures |r| <= |s|
    ensures forall x :: x in r <==> x in s && p(x)
    ensures |r| == 0 <==> forall x :: x in s ==> !p(x)
  {
    KeptMembers(s, p);
    Kept(s, p)
  }

  /** The elements of `s` that satisfy `p`, in order; `Filter` is this with its contract. */
  function Kept<T>(s: seq<T>, p: T -> bool): seq<T> {
    if |s| == 0 then [] else (if p(s[0]) then [s[0]] else []) + Kept(s[1..], p)
  }

  lemma {:induction false} KeptMembers<T(!new)>(s: seq<T>, p: T -> bool)
    ensures |Kept(s, p)| <= |s|
    ensures forall x :: x in Kept(s, p) <==> x in s && p(x)
    ensures |Kept(s, p)| == 0 <==> forall x :: x in s ==> !p(x)
  {
    if |s| > 0 {
      KeptMembers(s[1..], p);
      assert forall x :: x in s <==> x == s[0] || x in s[1..];
    }
  }

  /** `filter` keeps the order of the array: filtering a concatenation concatenates the filtered parts. */
  lemma FilterAppend<T(!new)>(a: seq<T>, b: seq<T>, p: T -> bool)
    ensures Filter(a + b, p) == Filter(a, p) + Filter(b, p)
  {
    KeptAppend(a, b, p);
  }

  lemma {:induction false} KeptAppend<T>(a: seq<T>, b: seq<T>, p: T -> bool)
    ensures Kept(a + b, p) == Kept(a, p) + Kept(b, p)
  {
    if |a| == 0 {
      assert a + b == b;
    } else {
      var h := if p(a[0]) then [a[0]] else [];
      assert (a + b)[0] == a[0] && (a + b)[1..] == a[1..] + b;
      KeptAppend(a[1..], b, p);
      calc {
        Kept(a + b, p);
        h + Kept(a[1..] + b, p);
        h + (Kept(a[1..], p) + Kept(b, p));
        (h + Kept(a[1..], p)) + Kept(b, p);
      }
    }
  }

  /** `filter` looks at the first element, then filters the rest. */
  lemma FilterCons<T(!new)>(s: seq<T>, p: T -> bool)
    requires |s| > 0
    ensures Filter(s, p) == (if p(s[0]) then [s[0]] else []) + Filter(s[1..], p)
  {
  }

  /** Together with `FilterAppend`: a single element is kept exactly when it satisfies `p`. */
  lemma FilterSingle<T(!new)>(x: T, p: T -> bool)
    ensures Filter([x], p) == if p(x) then [x] else []
  {
    assert [x][1..] == [];
  }
}

=== FILE: kidney_care.dfy ===
/** The kidney-care booking tools: the webhook payload, slot lookup, booked-slot
    lookup, booking, slot selection and cancellation, over an abstract store that
    follows the document database's query and update semantics. */
module KidneyCare {
  import opened JsCore
  import opened CalendarDate

  // ---------------------------------------------------------------------------
  // Webhook payload

  /** The fields of the payload, keyed by name, valued by the tool argument
      (None when the argument was not given, i.e. `undefined`). */
  datatype Field = Field(key: string, value: Option<string>)

  /** What `postInfo` does: whether the payload is posted, the payload itself and the JSON it returns. */
  datatype PostOutcome = PostOutcome(posted: bool, payload: seq<Field>, json: string)

  /** The keys the tool extracts: the keys of `collect`, or `["name"]` when it has none. */
  function ExtractedKeys(collectKeys: seq<string>): (r: seq<string>)
    ensures |collectKeys| > 0 ==> r == collectKeys
    ensures |collectKeys| == 0 ==> r == ["name"]
  {
    if |collectKeys| > 0 then collectKeys else ["name"]
  }

  predicate IsArgumentKey(k: string) {
    k == "name" || k == "phone" || k == "email"
  }

  function Argument(k: string, name: Option<string>, phone: Option<string>, email: Option<string>): Option<string>
    requires IsArgumentKey(k)
  {
    if k == "name" then name else if k == "phone" then phone else email
  }

  /** The object the `reduce` builds: one member per extracted argument key, in the order of `keys`. */
  function Payload(keys: seq<string>, name: Option<string>, phone: Option<string>, email: Option<string>): (r: seq<Field>)
    ensures |r| <= |keys|
    ensures |r| == |Filter(keys, IsArgumentKey)|
    ensures forall n :: 0 <= n < |r| ==> r[n].key == Filter(keys, IsArgumentKey)[n] && r[n].value == Argument(r[n].key, name, phone, email)
    ensures forall f :: f in r ==> f.key in keys && IsArgumentKey(f.key) && f.value == Argument(f.key, name, phone, email)
    ensures forall k :: k in keys && IsArgumentKey(k) ==> Field(k, Argument(k, name, phone, email)) in r
  {
    if |keys| == 0 then []
    else
      var rest := Payload(keys[1..], name, phone, email);
      FilterCons(keys, IsArgumentKey);
      if IsArgumentKey(keys[0]) then [Field(keys[0], Argument(keys[0], name, phone, email))] + rest else rest
  }

  /** `JSON.stringify` of the payload: fields whose value is undefined are omitted.
      Escaping of special characters inside values is not modelled. */
  function PayloadJson(fields: seq<Field>): string {
    "{" + JsonMembers(fields) + "}"
  }

  function JsonMembers(fields: seq<Field>): string {
    if |fields| == 0 then ""
    else
      var rest := JsonMembers(fields[1..]);
      if fields[0].value.None? then rest
      else
        var member := "\"" + fields[0].key + "\":\"" + fields[0].value.value + "\"";
        if rest == "" then member else member + "," + rest
  }

  lemma {:induction false} JsonMembersEmpty(fields: seq<Field>)
    ensures JsonMembers(fields) == "" <==> forall f :: f in fields ==> f.value.None?
  {
    if |fields| > 0 {
      JsonMembersEmpty(fields[1..]);
      assert forall f :: f in fields <==> f == fields[0] || f in fields[1..];
    }
  }

  /** How `JSON.stringify` joins the members of two consecutive runs of fields. */
  function JoinMembers(a: string, b: string): string {
    if a == "" then b else if b == "" then a else a + "," + b
  }

  /** One field gives one `"key":"value"` member, or nothing when its value is undefined. */
  lemma JsonMembersSingle(f: Field)
    ensures f.value.None? ==> JsonMembers([f]) == ""
    ensures f.value.Some? ==> JsonMembers([f]) == "\"" + f.key + "\":\"" + f.value.value + "\""
  {
    assert [f][1..] == [];
  }

  /** The members of consecutive fields come out consecutively, separated by one comma. */
  lemma {:induction false} JsonMembersAppend(a: seq<Field>, b: seq<Field>)
    ensures JsonMembers(a + b) == JoinMembers(JsonMembers(a), JsonMembers(b))
  {
    if |a| == 0 {
      assert a + b == b;
    } else {
      assert (a + b)[1..] == a[1..] + b;
      JsonMembersAppend(a[1..], b);
      if a[0].value.Some? {
        var member := "\"" + a[0].key + "\":\"" + a[0].value.value + "\"";
        var ra, rb := JsonMembers(a[1..]), JsonMembers(b);
        if ra != "" && rb != "" {
          assert member + "," + (ra + "," + rb) == (member + "," + ra) + "," + rb;
        }
      }
    }
  }

  /** The `postInfo` tool. `webhookGiven` is the truthiness of the webhook details;
      `collectKeys` are the keys of the `collect` object, hence distinct. */
  function PostInfo(collectKeys: seq<string>, webhookGiven: bool,
                    name: Option<string>, phone: Option<string>, email: Option<string>): (r: PostOutcome)
    ensures r.posted <==> webhookGiven && exists k :: k in ExtractedKeys(collectKeys) && IsArgumentKey(k)
    ensures forall f :: f in r.payload <==> f.key in ExtractedKeys(collectKeys) && IsArgumentKey(f.key) && f.value == Argument(f.key, name, phone, email)
    ensures |r.payload| == |Filter(ExtractedKeys(collectKeys), IsArgumentKey)|
    ensures forall n :: 0 <= n < |r.payload| ==>
      r.payload[n].key == Filter(ExtractedKeys(collectKeys), IsArgumentKey)[n]
    ensures r.json == PayloadJson(r.payload)
    ensures r.json == "{}" <==> forall f :: f in r.payload ==> f.value.None?
  {
    var payload := Payload(ExtractedKeys(collectKeys), name, phone, email);
    JsonMembersEmpty(payload);
    assert forall k :: k in ExtractedKeys(collectKeys) && IsArgumentKey(k) ==> Field(k, Argument(k, name, phone, email)) in payload;
    PostOutcome(webhookGiven && |payload| > 0, payload, PayloadJson(payload))
  }

  // ---------------------------------------------------------------------------
  // The store

  /** A record of the patient collection. */
  datatype Patient = Patient(name: string, patientId: string, phone: string, address: string, city: string)

  /** One appointment of a schedule document; a free slot has no name. */
  datatype Slot = Slot(time: string, name: Option<string>, phone: Option<string>, patientId: Option<string>, address: Option<string>)

  /** A document of the scheduling collection: the slots of one city on one `YYYY-MM-DD` date. */
  datatype ScheduleDoc = ScheduleDoc(date: string, city: string, appointments: seq<Slot>)

  /** `new RegExp(pattern, 'i')` matching `text`; regular expressions are not modelled. */
  type Matcher = (string, string) -> bool

  /** A (date, time) pair as the tools report it. */
  datatype SlotRef = SlotRef(date: string, time: string)

  const NoPatientWithDetails := "No patient found with these details"
  const NoPatientFound := "No patient found."
  const NoSlotsForCity := "No available slots for your city"
  const NoAppointmentFound := "No Appointment found."
  const NoSlotsForDate := "No slots found for the given date"
  const NoMatchingAppointment := "No matching appointment found."

  predicate IsPatient(matches: Matcher, name: string, patientId: string, p: Patient) {
    matches(name, p.name) && p.patientId == patientId
  }

  /** `fetchPatientInfo`: the first patient whose name matches and whose id is equal. */
  function FetchPatientInfo(patients: seq<Patient>, matches: Matcher, name: string, patientId: string): (r: Option<Patient>)
    ensures r.Some? ==> exists i :: 0 <= i < |patients| && patients[i] == r.value && IsPatient(matches, name, patientId, r.value)
                          && forall k :: 0 <= k < i ==> !IsPatient(matches, name, patientId, patients[k])
    ensures r.None? <==> forall p :: p in patients ==> !IsPatient(matches, name, patientId, p)
  {
    var i := FindIndex(patients, (p: Patient) => IsPatient(matches, name, patientId, p));
    if i.Some? then Some(patients[i.value]) else None
  }

  /** The (date, time) pairs of the slots of `docs` that satisfy `keep`, document by document, in order. */
  function SlotsWhere(docs: seq<ScheduleDoc>, keep: Slot -> bool): (r: seq<SlotRef>)
    ensures forall s :: s in r <==> exists d, a :: d in docs && a in d.appointments && keep(a) && s == SlotRef(d.date, a.time)
  {
    if |docs| == 0 then []
    else
      var here := SlotsOf(docs[0], keep);
      var rest := SlotsWhere(docs[1..], keep);
      assert forall d :: d in docs <==> d == docs[0] || d in docs[1..];
      here + rest
  }

  function SlotsOf(d: ScheduleDoc, keep: Slot -> bool): (r: seq<SlotRef>)
    ensures forall s :: s in r <==> exists a :: a in d.appointments && keep(a) && s == SlotRef(d.date, a.time)
    decreases |d.appointments|
  {
    if |d.appointments| == 0 then []
    else
      var a := d.appointments[0];
      var rest := SlotsOf(d.(appointments := d.appointments[1..]), keep);
      assert forall x :: x in d.appointments <==> x == a || x in d.appointments[1..];
      (if keep(a) then [SlotRef(d.date, a.time)] else []) + rest
  }

  /** The slots of consecutive documents come out consecutively: `SlotsWhere` keeps the schedule's order. */
  lemma {:induction false} SlotsWhereAppend(a: seq<ScheduleDoc>, b: seq<ScheduleDoc>, keep: Slot -> bool)
    ensures SlotsWhere(a + b, keep) == SlotsWhere(a, keep) + SlotsWhere(b, keep)
  {
    if |a| == 0 {
      assert a + b == b;
    } else {
      assert (a + b)[1..] == a[1..] + b;
      SlotsWhereAppend(a[1..], b, keep);
    }
  }

  /** Together with `SlotsWhereAppend`: one document contributes exactly its own kept slots. */
  lemma SlotsWhereSingle(d: ScheduleDoc, keep: Slot -> bool)
    ensures SlotsWhere([d], keep) == SlotsOf(d, keep)
  {
    assert [d][1..] == [];
  }

  /** Within a document the kept slots come out in the order of `appointments`, one per kept slot. */
  lemma {:induction false} SlotsOfInOrder(d: ScheduleDoc, keep: Slot -> bool)
    ensures |SlotsOf(d, keep)| == |Filter(d.appointments, keep)|
    ensures forall n :: 0 <= n < |SlotsOf(d, keep)| ==> SlotsOf(d, keep)[n] == SlotRef(d.date, Filter(d.appointments, keep)[n].time)
    decreases |d.appointments|
  {
    if |d.appointments| > 0 {
      SlotsOfInOrder(d.(appointments := d.appointments[1..]), keep);
    }
  }

  // ---------------------------------------------------------------------------
  // Available slots

  datatype LookupReply = Offered(slots: seq<SlotRef>, userLocationCity: string) | LookupMessage(text: string)

  /** The `fetchPatientSlots` query: dated today or later, in a city matching the patient's. */
  predicate InPatientCity(matches: Matcher, today: string, city: string, d: ScheduleDoc) {
    LexLe(today, d.date) && matches(city, d.city)
  }

  predicate IsFree(a: Slot) {
    a.name.None?
  }

  /** The `lookup_Patient_Information` tool. `today` is the clock's `YYYY-MM-DD` date. */
  function LookupPatientInfo(patients: seq<Patient>, schedule: seq<ScheduleDoc>, matches: Matcher,
                             today: string, name: string, patientId: string): (r: LookupReply)
    ensures FetchPatientInfo(patients, matches, name, patientId).None? ==> r == LookupMessage(NoPatientWithDetails)
    ensures FetchPatientInfo(patients, matches, name, patientId).Some? ==>
      var p := FetchPatientInfo(patients, matches, name, patientId).value;
      && (r.Offered? || r == LookupMessage(NoSlotsForCity))
      && ((forall d :: d in schedule ==> !InPatientCity(matches, today, p.city, d)) <==> r == LookupMessage(NoSlotsForCity))
      && (r.Offered? ==>
            && r.userLocationCity == p.address + p.city
            && r.slots == SlotsWhere(Filter(schedule, (d: ScheduleDoc) => InPatientCity(matches, today, p.city, d)), IsFree)
            && forall s :: s in r.slots <==>
                 exists d, a :: d in schedule && InPatientCity(matches, today, p.city, d) && a in d.appointments && IsFree(a)
                                && s == SlotRef(d.date, a.time))
  {
    var patient := FetchPatientInfo(patients, matches, name, patientId);
    if patient.None? then LookupMessage(NoPatientWithDetails)
    else
      var p := patient.value;
      var docs := Filter(schedule, (d: ScheduleDoc) => InPatientCity(matches, today, p.city, d));
      if |docs| == 0 then LookupMessage(NoSlotsForCity)
      else Offered(SlotsWhere(docs, IsFree), p.address + p.city)
  }

  // ---------------------------------------------------------------------------
  // Booked slots

  datatype BookedReply = BookedSlots(slots: seq<SlotRef>) | BookedMessage(text: string)

  /** The `bookedKidneyCareAppointments` query: some slot's name matches and some slot carries the id. */
  predicate HoldsPatient(matches: Matcher, name: string, patientId: string, d: ScheduleDoc) {
    && (exists a :: a in d.appointments && a.name.Some? && matches(name, a.name.value))
    && (exists a :: a in d.appointments && a.patientId == Some(patientId))
  }

  /** A slot booked under `name` (ignoring case) and `patientId`. */
  predicate BookedBy(name: string, patientId: string, a: Slot) {
    a.name.Some? && Lower(a.name.value) == Lower(name) && a.patientId == Some(patientId)
  }

  /** The `find_booked_appointment` tool. */
  function FindBookedAppointment(patients: seq<Patient>, schedule: seq<ScheduleDoc>, matches: Matcher,
                                 name: string, patientId: string): (r: BookedReply)
    ensures FetchPatientInfo(patients, matches, name, patientId).None? ==> r == BookedMessage(NoPatientFound)
    ensures FetchPatientInfo(patients, matches, name, patientId).Some? ==>
      && (r.BookedSlots? || r == BookedMessage(NoAppointmentFound))
      && ((forall d :: d in schedule ==> !HoldsPatient(matches, name, patientId, d)) <==> r == BookedMessage(NoAppointmentFound))
      && (r.BookedSlots? ==>
            r.slots == SlotsWhere(Filter(schedule, (d: ScheduleDoc) => HoldsPatient(matches, name, patientId, d)),
                                  (a: Slot) => BookedBy(name, patientId, a)))
      && (r.BookedSlots? ==>
            forall s :: s in r.slots <==>
              exists d, a :: d in schedule && HoldsPatient(matches, name, patientId, d) && a in d.appointments
                             && BookedBy(name, patientId, a) && s == SlotRef(d.date, a.time))
  {
    if FetchPatientInfo(patients, matches, name, patientId).None? then BookedMessage(NoPatientFound)
    else
      var docs := Filter(schedule, (d: ScheduleDoc) => HoldsPatient(matches, name, patientId, d));
      if |docs| == 0 then BookedMessage(NoAppointmentFound)
      else BookedSlots(SlotsWhere(docs, (a: Slot) => BookedBy(name, patientId, a)))
  }

  // ---------------------------------------------------------------------------
  // Booking and selecting a slot

  /** Why a booking or a selection stops before the slot is taken. */
  datatype Refusal =
    | NoPatient
    | BadDate(error: string)
    | NoScheduleOn
    | NoSuchTime(time: string)
    | AlreadyBooked(time: string, date: string)
  {
    /** The tool's reply; a bad date is the error `parseDate` throws, which the tool returns. */
    function Message(): string {
      match this
      case NoPatient => NoPatientWithDetails
      case BadDate(e) => e
      case NoScheduleOn => NoSlotsForDate
      case NoSuchTime(t) => "Slot for " + t + " is not avaialable."
      case AlreadyBooked(t, d) => "Sorry, the slot at " + t + " on " + d + " is already booked!"
    }
  }

  /** The slot a booking may take: the patient, the parsed date, the schedule document
      (`fetchKidneyCareSlotByDate`, the first with that date) and the slot (the first with that time). */
  datatype Vacancy = Vacancy(patient: Patient, date: string, doc: nat, slot: nat)

  predicate DatedOn(date: string, d: ScheduleDoc) {
    d.date == date
  }

  predicate At(time: string, a: Slot) {
    a.time == time
  }

  /** The checks `book_Appointment_Slot` and `select_Appointment_Slot` share, in their order. */
  function CheckSlot(patients: seq<Patient>, schedule: seq<ScheduleDoc>, matches: Matcher,
                     today: Date, isoVerdict: Option<Date>,
                     date: string, time: string, name: string, patientId: string): (r: Result<Vacancy, Refusal>)
    requires Valid(today) && (isoVerdict.Some? ==> Valid(isoVerdict.value))
    ensures FetchPatientInfo(patients, matches, name, patientId).None? <==> r == Err(NoPatient)
    ensures r.Err? && r.error.BadDate? <==>
      FetchPatientInfo(patients, matches, name, patientId).Some? && ParseDate(date, today, isoVerdict).Err?
    ensures r.Err? && r.error.BadDate? ==> r.error.error == InvalidDateMessage
    ensures r.Err? && !r.error.NoPatient? && !r.error.BadDate? ==> ParseDate(date, today, isoVerdict).Ok?
    ensures r.Err? && r.error.NoScheduleOn? ==>
      forall d :: d in schedule ==> !DatedOn(ParseDate(date, today, isoVerdict).value, d)
    ensures r.Err? && r.error.NoSuchTime? ==>
      r.error.time == time && exists i :: FirstDatedOn(schedule, ParseDate(date, today, isoVerdict).value, i)
                                          && forall a :: a in schedule[i].appointments ==> a.time != time
    ensures r.Err? && r.error.AlreadyBooked? ==>
      && r.error == AlreadyBooked(time, ParseDate(date, today, isoVerdict).value)
      && exists i, j :: && FirstDatedOn(schedule, r.error.date, i) && FirstAt(schedule[i].appointments, time, j)
                        && !IsFree(schedule[i].appointments[j])
    ensures r.Ok? ==>
      var v := r.value;
      && Some(v.patient) == FetchPatientInfo(patients, matches, name, patientId)
      && ParseDate(date, today, isoVerdict) == Ok(v.date)
      && FirstDatedOn(schedule, v.date, v.doc)
      && FirstAt(schedule[v.doc].appointments, time, v.slot)
      && IsFree(schedule[v.doc].appointments[v.slot])
  {
    var patient := FetchPatientInfo(patients, matches, name, patientId);
    if patient.None? then Err(NoPatient)
    else
      var parsed := ParseDate(date, today, isoVerdict);
      if parsed.Err? then Err(BadDate(parsed.error))
      else
        var i := FindIndex(schedule, (d: ScheduleDoc) => DatedOn(parsed.value, d));
        if i.None? then Err(NoScheduleOn)
        else
          var j := FindIndex(schedule[i.value].appointments, (a: Slot) => At(time, a));
          if j.None? then Err(NoSuchTime(time))
          else if !IsFree(schedule[i.value].appointments[j.value]) then Err(AlreadyBooked(time, parsed.value))
          else Ok(Vacancy(patient.value, parsed.value, i.value, j.value))
  }

  /** `i` is the first document dated `date`. */
  predicate FirstDatedOn(schedule: seq<ScheduleDoc>, date: string, i: int) {
    0 <= i < |schedule| && schedule[i].date == date && forall k :: 0 <= k < i ==> schedule[k].date != date
  }

  /** `j` is the first slot at `time`. */
  predicate FirstAt(slots: seq<Slot>, time: string, j: int) {
    0 <= j < |slots| && slots[j].time == time && forall k :: 0 <= k < j ==> slots[k].time != time
  }

  /** A document that has a slot at `time`. */
  predicate OffersTime(date: string, time: string, d: ScheduleDoc) {
    d.date == date && exists a :: a in d.appointments && a.time == time
  }

  /** `updateOne({date, "appointments.time": time}, {$set: {"appointments.$.…": …}})`: in the first document
      dated `date` that has a slot at `time`, the first such slot gets the given name, phone, id and address. */
  function UpdateSlot(schedule: seq<ScheduleDoc>, date: string, time: string,
                      name: string, phone: string, patientId: string, address: string): seq<ScheduleDoc>
  {
    var i := FindIndex(schedule, (d: ScheduleDoc) => OffersTime(date, time, d));
    if i.None? then schedule
    else
      var slots := schedule[i.value].appointments;
      var j := FindIndex(slots, (a: Slot) => At(time, a));
      if j.None? then schedule
      else
        var taken := Slot(slots[j.value].time, Some(name), Some(phone), Some(patientId), Some(address));
        schedule[i.value := schedule[i.value].(appointments := slots[j.value := taken])]
  }

  /** When the first document dated `date` has a slot at `time`, the positional update writes exactly
      the first slot at `time` of that document. */
  lemma UpdateSlotHitsCheckedSlot(schedule: seq<ScheduleDoc>, date: string, time: string,
                                  name: string, phone: string, patientId: string, address: string, i: nat, j: nat)
    requires FirstDatedOn(schedule, date, i) && FirstAt(schedule[i].appointments, time, j)
    ensures UpdateSlot(schedule, date, time, name, phone, patientId, address)
         == schedule[i := schedule[i].(appointments := schedule[i].appointments[j := Slot(time, Some(name), Some(phone), Some(patientId), Some(address))])]
  {
    assert schedule[i].appointments[j] in schedule[i].appointments;
    assert OffersTime(date, time, schedule[i]);
    var fi := FindIndex(schedule, (d: ScheduleDoc) => OffersTime(date, time, d));
    assert fi.Some? && !(fi.value < i) && !(i < fi.value);
    var fj := FindIndex(schedule[i].appointments, (a: Slot) => At(time, a));
    assert fj.Some? && !(fj.value < j) && !(j < fj.value);
  }

  datatype BookReply = Booked(name: string, patientId: string, phone: string, time: string, date: string, location: string)
                     | BookRefused(refusal: Refusal)

  /** The `book_Appointment_Slot` tool: the reply and the schedule afterwards. The `address` argument is
      never used; the address written is the patient record's address and city. */
  function BookAppointmentSlot(patients: seq<Patient>, schedule: seq<ScheduleDoc>, matches: Matcher,
                               today: Date, isoVerdict: Option<Date>,
                               date: string, time: string, name: string, patientId: string, address: string): (r: (BookReply, seq<ScheduleDoc>))
    requires Valid(today) && (isoVerdict.Some? ==> Valid(isoVerdict.value))
    ensures var c := CheckSlot(patients, schedule, matches, today, isoVerdict, date, time, name, patientId);
      && (c.Err? <==> r.0.BookRefused?)
      && (c.Err? ==> r.0.refusal == c.error && r.1 == schedule)
    ensures r.0.Booked? ==>
      var p := FetchPatientInfo(patients, matches, name, patientId).value;
      && FetchPatientInfo(patients, matches, name, patientId).Some?
      && r.0 == Booked(name, patientId, p.phone, time, ParseDate(date, today, isoVerdict).value, p.address + " " + p.city)
      && |r.1| == |schedule|
      && exists i, j ::
           && FirstDatedOn(schedule, r.0.date, i) && FirstAt(schedule[i].appointments, time, j)
           && IsFree(schedule[i].appointments[j])
           && r.1 == schedule[i := schedule[i].(appointments := schedule[i].appointments[j := Slot(time, Some(name), Some(p.phone), Some(patientId), Some(r.0.location))])]
  {
    var c := CheckSlot(patients, schedule, matches, today, isoVerdict, date, time, name, patientId);
    if c.Err? then (BookRefused(c.error), schedule)
    else
      var v := c.value;
      var location := v.patient.address + " " + v.patient.city;
      UpdateSlotHitsCheckedSlot(schedule, v.date, time, name, v.patient.phone, patientId, location, v.doc, v.slot);
      (Booked(name, patientId, v.patient.phone, time, v.date, location),
       UpdateSlot(schedule, v.date, time, name, v.patient.phone, patientId, location))
  }

  datatype SelectReply = ConfirmAddress(address: string) | SelectRefused(refusal: Refusal)

  /** The `select_Appointment_Slot` tool: the booking checks without the update. */
  function SelectAppointmentSlot(patients: seq<Patient>, schedule: seq<ScheduleDoc>, matches: Matcher,
                                 today: Date, isoVerdict: Option<Date>,
                                 date: string, time: string, name: string, patientId: string): (r: SelectReply)
    requires Valid(today) && (isoVerdict.Some? ==> Valid(isoVerdict.value))
    ensures r.ConfirmAddress? ==> FetchPatientInfo(patients, matches, name, patientId).Some? && r.address == FetchPatientInfo(patients, matches, name, patientId).value.address
  {
    var c := CheckSlot(patients, schedule, matches, today, isoVerdict, date, time, name, patientId);
    if c.Err? then SelectRefused(c.error) else ConfirmAddress(c.value.patient.address)
  }

  /** The confirmation text the select tool returns. */
  function ConfirmAddressMessage(address: string): string {
    "Ask patient to confirm address 📍" + address + " for appointment booking."
  }

  /** Selecting agrees with booking: both refuse for the same reason, or the selection goes through
      exactly when the booking would, with the same patient's address. */
  lemma SelectAgreesWithBook(patients: seq<Patient>, schedule: seq<ScheduleDoc>, matches: Matcher,
                             today: Date, isoVerdict: Option<Date>,
                             date: string, time: string, name: string, patientId: string, address: string)
    requires Valid(today) && (isoVerdict.Some? ==> Valid(isoVerdict.value))
    ensures var s := SelectAppointmentSlot(patients, schedule, matches, today, isoVerdict, date, time, name, patientId);
            var b := BookAppointmentSlot(patients, schedule, matches, today, isoVerdict, date, time, name, patientId, address);
      && (s.SelectRefused? <==> b.0.BookRefused?)
      && (s.SelectRefused? ==> s.refusal == b.0.refusal)
      && (s.ConfirmAddress? ==> b.0.location == s.address + " " + FetchPatientInfo(patients, matches, name, patientId).value.city)
  {
  }

  /** A booking shows up among the patient's booked slots, provided the name pattern matches
      the name it was booked under. */
  lemma {:induction false} BookedSlotIsFound(patients: seq<Patient>, schedule: seq<ScheduleDoc>, matches: Matcher,
                          today: Date, isoVerdict: Option<Date>,
                          date: string, time: string, name: string, patientId: string, address: string)
    requires Valid(today) && (isoVerdict.Some? ==> Valid(isoVerdict.value))
    requires matches(name, name)
    ensures var b := BookAppointmentSlot(patients, schedule, matches, today, isoVerdict, date, time, name, patientId, address);
      b.0.Booked? ==>
        var f := FindBookedAppointment(patients, b.1, matches, name, patientId);
        f.BookedSlots? && SlotRef(b.0.date, time) in f.slots
  {
    var b := BookAppointmentSlot(patients, schedule, matches, today, isoVerdict, date, time, name, patientId, address);
    if b.0.Booked? {
      var p := FetchPatientInfo(patients, matches, name, patientId).value;
      var i, j :| && FirstDatedOn(schedule, b.0.date, i) && FirstAt(schedule[i].appointments, time, j)
                  && b.1 == schedule[i := schedule[i].(appointments := schedule[i].appointments[j := Slot(time, Some(name), Some(p.phone), Some(patientId), Some(b.0.location))])];
      var d := b.1[i];
      var a := d.appointments[j];
      assert a == Slot(time, Some(name), Some(p.phone), Some(patientId), Some(b.0.location));
      assert d.date == b.0.date;
      SlotOfPatientIsFound(patients, b.1, matches, name, patientId, d, a);
    }
  }

  /** A slot booked under the patient's own name and id, in a schedule document, is listed. */
  lemma SlotOfPatientIsFound(patients: seq<Patient>, schedule: seq<ScheduleDoc>, matches: Matcher,
                             name: string, patientId: string, d: ScheduleDoc, a: Slot)
    requires FetchPatientInfo(patients, matches, name, patientId).Some?
    requires matches(name, name)
    requires d in schedule && a in d.appointments && a.name == Some(name) && a.patientId == Some(patientId)
    ensures var f := FindBookedAppointment(patients, schedule, matches, name, patientId);
      f.BookedSlots? && SlotRef(d.date, a.time) in f.slots
  {
    assert HoldsPatient(matches, name, patientId, d);
    assert BookedBy(name, patientId, a);
  }

  // ---------------------------------------------------------------------------
  // Cancelling

  datatype CancelReply = Cancelled(name: string, patientId: string) | NotCancelled
  {
    function Message(): string {
      match this
      case Cancelled(n, id) => "Appointment for " + n + " (" + id + ") has been cancelled."
      case NotCancelled => NoMatchingAppointment
    }
  }

  /** The `findKidneyCareAppointment` query. Each condition on the appointments holds of SOME slot,
      not necessarily the same one. */
  predicate CancelQuery(matches: Matcher, name: string, patientId: string, date: string, time: string, d: ScheduleDoc) {
    && d.date == date
    && HoldsPatient(matches, name, patientId, d)
    && (exists a :: a in d.appointments && a.time == time)
  }

  /** The slot the cancel loop looks for: name (ignoring case), id and time all agree. */
  predicate BookingAt(name: string, patientId: string, time: string, a: Slot) {
    BookedBy(name, patientId, a) && a.time == time
  }

  /** `j` is the first slot of `slots` booked under `name` and `patientId` at `time`. */
  predicate FirstBooking(slots: seq<Slot>, name: string, patientId: string, time: string, j: int) {
    && 0 <= j < |slots| && BookingAt(name, patientId, time, slots[j])
    && forall k :: 0 <= k < j ==> !BookingAt(name, patientId, time, slots[k])
  }

  /** `i` is the first document of `schedule` that answers the cancel query. */
  predicate FirstQueried(schedule: seq<ScheduleDoc>, matches: Matcher, name: string, patientId: string, date: string, time: string, i: int) {
    && 0 <= i < |schedule| && CancelQuery(matches, name, patientId, date, time, schedule[i])
    && forall k :: 0 <= k < i ==> !CancelQuery(matches, name, patientId, date, time, schedule[k])
  }

  /** `schedule` with slot `j` of document `i` cleared. */
  function ClearedAt(schedule: seq<ScheduleDoc>, i: nat, j: nat): seq<ScheduleDoc>
    requires i < |schedule| && j < |schedule[i].appointments|
  {
    schedule[i := schedule[i].(appointments := schedule[i].appointments[j := Cleared(schedule[i].appointments[j])])]
  }

  /** A slot with its booking cleared; the time stays. */
  function Cleared(a: Slot): (r: Slot)
    ensures r.time == a.time && IsFree(r) && r.phone.None? && r.patientId.None? && r.address.None?
  {
    Slot(a.time, None, None, None, None)
  }

  /** Clears the first slot of document `i` that satisfies `BookingAt`, replacing the whole appointments array. */
  function ClearFirstBooking(schedule: seq<ScheduleDoc>, i: nat, name: string, patientId: string, time: string): (r: (CancelReply, seq<ScheduleDoc>))
    requires i < |schedule|
    ensures r.0.NotCancelled? <==> forall a :: a in schedule[i].appointments ==> !BookingAt(name, patientId, time, a)
    ensures r.0.NotCancelled? ==> r.1 == schedule
    ensures r.0.Cancelled? ==>
      && r.0 == Cancelled(name, patientId)
      && exists j :: FirstBooking(schedule[i].appointments, name, patientId, time, j) && r.1 == ClearedAt(schedule, i, j)
  {
    var slots := schedule[i].appointments;
    var j := FindIndex(slots, (a: Slot) => BookingAt(name, patientId, time, a));
    if j.None? then (NotCancelled, schedule)
    else
      assert FirstBooking(slots, name, patientId, time, j.value);
      (Cancelled(name, patientId), ClearedAt(schedule, i, j.value))
  }

  /** The `cancel_Appointment` tool, as written: the first document matching the query is the only one
      searched for the booking. The date is compared as given, without `parseDate`. */
  function CancelAppointment(schedule: seq<ScheduleDoc>, matches: Matcher,
                             name: string, patientId: string, date: string, time: string): (r: (CancelReply, seq<ScheduleDoc>))
    ensures r.0.Cancelled? <==>
      exists i :: FirstQueried(schedule, matches, name, patientId, date, time, i)
                  && exists a :: a in schedule[i].appointments && BookingAt(name, patientId, time, a)
    ensures r.0.NotCancelled? ==> r.1 == schedule
    ensures r.0.Cancelled? ==>
      && r.0 == Cancelled(name, patientId)
      && exists i, j :: FirstQueried(schedule, matches, name, patientId, date, time, i)
                        && FirstBooking(schedule[i].appointments, name, patientId, time, j) && r.1 == ClearedAt(schedule, i, j)
    ensures (forall d, a :: d in schedule && a in d.appointments && d.date == date ==> !BookingAt(name, patientId, time, a))
            ==> r.0.NotCancelled?
  {
    var i := FindIndex(schedule, (d: ScheduleDoc) => CancelQuery(matches, name, patientId, date, time, d));
    if i.None? then (NotCancelled, schedule)
    else ClearFirstBooking(schedule, i.value, name, patientId, time)
  }

  /** The evidently intended cancellation: the document searched is the first one dated `date` that holds
      the booking itself, as an element-wise query (`$elemMatch`) would select it. */
  function CancelBooking(schedule: seq<ScheduleDoc>, name: string, patientId: string, date: string, time: string): (r: (CancelReply, seq<ScheduleDoc>))
    ensures r.0.Cancelled? <==> exists d, a :: d in schedule && d.date == date && a in d.appointments && BookingAt(name, patientId, time, a)
    ensures r.0.NotCancelled? ==> r.1 == schedule
    ensures r.0.Cancelled? ==>
      && r.0 == Cancelled(name, patientId)
      && exists i, j ::
           && 0 <= i < |schedule| && schedule[i].date == date
           && (forall k :: 0 <= k < i ==> !HasBookingOn(name, patientId, date, time, schedule[k]))
           && FirstBooking(schedule[i].appointments, name, patientId, time, j) && r.1 == ClearedAt(schedule, i, j)
  {
    var i := FindIndex(schedule, (d: ScheduleDoc) => HasBookingOn(name, patientId, date, time, d));
    if i.None? then (NotCancelled, schedule)
    else ClearFirstBooking(schedule, i.value, name, patientId, time)
  }

  predicate HasBookingOn(name: string, patientId: string, date: string, time: string, d: ScheduleDoc) {
    d.date == date && exists a :: a in d.appointments && BookingAt(name, patientId, time, a)
  }

  /** Two same-day documents: Ann holds 09:00 in Pune, Bob 10:00 in Pune, and Ann 10:00 in Mumbai. */
  const TwoCities := [
    ScheduleDoc("2025-03-01", "Pune", [Slot("09:00", Some("Ann"), None, Some("P1"), None),
                                       Slot("10:00", Some("Bob"), None, Some("P2"), None)]),
    ScheduleDoc("2025-03-01", "Mumbai", [Slot("10:00", Some("Ann"), None, Some("P1"), None)])
  ]

  /** Cancelling Ann's 10:00 booking finds the Pune document first: it satisfies each condition of the
      query through a different slot, holds no matching booking, and the Mumbai booking stays. The
      element-wise query cancels it. */
  lemma CancelMissesBookingInLaterDocument()
    ensures CancelAppointment(TwoCities, (p: string, t: string) => p == t, "Ann", "P1", "2025-03-01", "10:00").0.NotCancelled?
    ensures CancelBooking(TwoCities, "Ann", "P1", "2025-03-01", "10:00").0.Cancelled?
  {
    PuneAnswersQueryWithoutBooking();
    var mumbai := TwoCities[1];
    assert mumbai.appointments[0] in mumbai.appointments && mumbai in TwoCities;
    assert BookingAt("Ann", "P1", "10:00", mumbai.appointments[0]);
  }

  /** The Pune document meets the query through Ann's 09:00 slot and Bob's 10:00 slot, yet holds no
      booking of Ann's at 10:00. */
  lemma PuneAnswersQueryWithoutBooking()
    ensures CancelQuery((p: string, t: string) => p == t, "Ann", "P1", "2025-03-01", "10:00", TwoCities[0])
    ensures forall a :: a in TwoCities[0].appointments ==> !BookingAt("Ann", "P1", "10:00", a)
  {
    var pune := TwoCities[0];
    assert pune.appointments[0] in pune.appointments && pune.appointments[1] in pune.appointments;
    assert Lower("Bob") != Lower("Ann") by { assert Lower("Bob")[0] == 'b'; }
    assert "09:00" != "10:00" by { assert "09:00"[0] != "10:00"[0]; }
  }
}

=== FILE: lead_capture.dfy ===
/** The interior-design lead-capture bot: the step machine that asks for one detail
    at a time, the tools that store each detail, and the e-mail check. */
module LeadCapture {
  import opened JsCore

  /** `collectedDetails`; every field starts out null. */
  datatype Details = Details(
    customerLocation: Option<string>,
    homeLocation: Option<string>,
    propertyType: Option<string>,
    scopeOfWork: Option<string>,
    startDate: Option<string>,
    name: Option<string>,
    emailId: Option<string>,
    budgetConfirmation: Option<string>)

  const NoDetails := Details(None, None, None, None, None, None, None, None)

  /** A session: the details and the tool the agent is told to call next (None before the first step). */
  datatype Session = Session(details: Details, currentTool: Option<string>)

  type Sessions = map<string, Session>

  /** The steps of the conversation, in the order they are asked. */
  datatype Step =
    | CustomerLocation | HomeLocation | PropertyType | ScopeOfWork | StartDate
    | ContactInfo | BudgetConfirmation | Complete
  {
    /** The value `currentTool` takes when this step is next. */
    function ToolName(): string {
      match this
      case CustomerLocation => "collectCustomerLocation"
      case HomeLocation => "collectHomeLocation"
      case PropertyType => "collectPropertyType"
      case ScopeOfWork => "collectScopeOfWork"
      case StartDate => "collectStartDate"
      case ContactInfo => "collectContactInfo"
      case BudgetConfirmation => "confirmBudget"
      case Complete => "complete"
    }

    /** Position in the asking order. */
    function Rank(): nat {
      match this
      case CustomerLocation => 0
      case HomeLocation => 1
      case PropertyType => 2
      case ScopeOfWork => 3
      case StartDate => 4
      case ContactInfo => 5
      case BudgetConfirmation => 6
      case Complete => 7
    }
  }

  /** The detail a step collects is present (truthy); contact info needs both name and e-mail. */
  predicate Answered(d: Details, s: Step) {
    match s
    case CustomerLocation => Truthy(d.customerLocation)
    case HomeLocation => Truthy(d.homeLocation)
    case PropertyType => Truthy(d.propertyType)
    case ScopeOfWork => Truthy(d.scopeOfWork)
    case StartDate => Truthy(d.startDate)
    case ContactInfo => Truthy(d.name) && Truthy(d.emailId)
    case BudgetConfirmation => Truthy(d.budgetConfirmation)
    case Complete => true
  }

  /** The chain of checks in `collectDetails`. */
  function NextStep(d: Details): (s: Step)
    ensures !Answered(d, s) || s == Complete
    ensures forall t: Step :: t.Rank() < s.Rank() ==> Answered(d, t)
  {
    if !Truthy(d.customerLocation) then CustomerLocation
    else if !Truthy(d.homeLocation) then HomeLocation
    else if !Truthy(d.propertyType) then PropertyType
    else if !Truthy(d.scopeOfWork) then ScopeOfWork
    else if !Truthy(d.startDate) then StartDate
    else if !Truthy(d.name) || !Truthy(d.emailId) then ContactInfo
    else if !Truthy(d.budgetConfirmation) then BudgetConfirmation
    else Complete
  }

  /** The next step is the only step whose detail is missing while every earlier one is present. */
  lemma NextStepIsFirstUnanswered(d: Details, s: Step)
    requires s == Complete || !Answered(d, s)
    requires forall t: Step :: t.Rank() < s.Rank() ==> Answered(d, t)
    ensures NextStep(d) == s
  {
    var n := NextStep(d);
    assert n.Rank() == s.Rank();
  }

  /** What a tool hands back to the agent. */
  datatype Reply =
    | Ask(step: Step)      // the prompt of the next step (its text is not modelled)
    | Said(text: string)   // a fixed message
    | TypeError            // the tool read a property of an undefined session and threw

  /** `collectDetails`: creates an empty session when none exists, records the next step as
      `currentTool` and asks for it. Nothing but `currentTool` of this session changes. */
  function CollectDetails(sessions: Sessions, id: string): (r: (Reply, Sessions))
    ensures r.1.Keys == sessions.Keys + {id}
    ensures forall k :: k in sessions && k != id ==> r.1[k] == sessions[k]
    ensures id in sessions ==> r.1[id].details == sessions[id].details
    ensures id !in sessions ==> r.1[id].details == NoDetails
    ensures r.0 == Ask(NextStep(r.1[id].details)) && r.1[id].currentTool == Some(r.0.step.ToolName())
  {
    var s := if id in sessions then sessions[id] else Session(NoDetails, None);
    var step := NextStep(s.details);
    (Ask(step), sessions[id := s.(currentTool := Some(step.ToolName()))])
  }

  /** The outcome of a tool that stored `details` in the existing session `id` and moved on: every other
      session is untouched, `currentTool` names the next step's tool and the reply asks for that step. */
  predicate StoredAndAsked(sessions: Sessions, id: string, details: Details, r: (Reply, Sessions)) {
    && id in sessions
    && r.1.Keys == sessions.Keys
    && (forall k :: k in sessions && k != id ==> r.1[k] == sessions[k])
    && r.1[id].details == details
    && r.0 == Ask(NextStep(details))
    && r.1[id].currentTool == Some(NextStep(details).ToolName())
  }

  /** The tools that store one value: the session must exist, the field is set and the next step asked. */
  function Store(sessions: Sessions, id: string, update: Details -> Details): (r: (Reply, Sessions))
    ensures id !in sessions ==> r == (TypeError, sessions)
    ensures id in sessions ==> StoredAndAsked(sessions, id, update(sessions[id].details), r)
  {
    if id !in sessions then (TypeError, sessions)
    else
      var s := sessions[id];
      CollectDetails(sessions[id := s.(details := update(s.details))], id)
  }

  /** `collectCustomerLocation` */
  function CollectCustomerLocation(sessions: Sessions, id: string, value: string): (r: (Reply, Sessions))
    ensures id !in sessions ==> r == (TypeError, sessions)
    ensures id in sessions ==> StoredAndAsked(sessions, id, sessions[id].details.(customerLocation := Some(value)), r)
    ensures id in sessions && value != "" ==> r.0.Ask? && CustomerLocation.Rank() < r.0.step.Rank()
  {
    Store(sessions, id, (d: Details) => d.(customerLocation := Some(value)))
  }

  /** `collectHomeLocation`: "same" in any letter case copies the customer location. */
  function CollectHomeLocation(sessions: Sessions, id: string, value: string): (r: (Reply, Sessions))
    ensures id !in sessions ==> r == (TypeError, sessions)
    ensures id in sessions ==>
      var before := sessions[id].details;
      StoredAndAsked(sessions, id, before.(homeLocation := if Lower(value) == "same" then before.customerLocation else Some(value)), r)
  {
    Store(sessions, id, (d: Details) => d.(homeLocation := if Lower(value) == "same" then d.customerLocation else Some(value)))
  }

  /** `collectPropertyType` */
  function CollectPropertyType(sessions: Sessions, id: string, value: string): (r: (Reply, Sessions))
    ensures id !in sessions ==> r == (TypeError, sessions)
    ensures id in sessions ==> StoredAndAsked(sessions, id, sessions[id].details.(propertyType := Some(value)), r)
  {
    Store(sessions, id, (d: Details) => d.(propertyType := Some(value)))
  }

  /** `collectScopeOfWork` */
  function CollectScopeOfWork(sessions: Sessions, id: string, value: string): (r: (Reply, Sessions))
    ensures id !in sessions ==> r == (TypeError, sessions)
    ensures id in sessions ==> StoredAndAsked(sessions, id, sessions[id].details.(scopeOfWork := Some(value)), r)
  {
    Store(sessions, id, (d: Details) => d.(scopeOfWork := Some(value)))
  }

  /** `collectStartDate` */
  function CollectStartDate(sessions: Sessions, id: string, value: string): (r: (Reply, Sessions))
    ensures id !in sessions ==> r == (TypeError, sessions)
    ensures id in sessions ==> StoredAndAsked(sessions, id, sessions[id].details.(startDate := Some(value)), r)
  {
    Store(sessions, id, (d: Details) => d.(startDate := Some(value)))
  }

  /** Storing a present value for the step being asked moves the conversation strictly forward. */
  lemma AnsweringAdvances(sessions: Sessions, id: string, value: string)
    requires id in sessions && value != ""
    requires NextStep(sessions[id].details).Rank() <= StartDate.Rank()
    ensures var step := NextStep(sessions[id].details);
      var r := match step
        case CustomerLocation => CollectCustomerLocation(sessions, id, value)
        case HomeLocation => CollectHomeLocation(sessions, id, value)
        case PropertyType => CollectPropertyType(sessions, id, value)
        case ScopeOfWork => CollectScopeOfWork(sessions, id, value)
        case _ => CollectStartDate(sessions, id, value);
      r.0.Ask? && step.Rank() < r.0.step.Rank()
  {
    var d := sessions[id].details;
    var step := NextStep(d);
    match step
    case CustomerLocation =>
    case HomeLocation =>
      var r := CollectHomeLocation(sessions, id, value);
      assert Answered(r.1[id].details, CustomerLocation);
      assert Answered(r.1[id].details, HomeLocation);
    case PropertyType =>
      var r := CollectPropertyType(sessions, id, value);
      assert Answered(d, CustomerLocation) && Answered(d, HomeLocation);
    case ScopeOfWork =>
      var r := CollectScopeOfWork(sessions, id, value);
      assert Answered(d, CustomerLocation) && Answered(d, HomeLocation) && Answered(d, PropertyType);
    case StartDate =>
      var r := CollectStartDate(sessions, id, value);
      assert Answered(d, CustomerLocation) && Answered(d, HomeLocation) && Answered(d, PropertyType);
      assert Answered(d, ScopeOfWork);
  }

  // ---------------------------------------------------------------------------
  // Contact information and the e-mail check

  const InvalidEmail := "Invalid email address. Please provide a valid email, e.g., 'sd12@gmail.com'."
  const BudgetFollowUp := "Thank you for letting us know. We’ll get in touch to discuss budget options and see how we can assist you further."

  function SessionNotFound(id: string): string {
    "Session not found or collectedDetails not initialized for sessionId: " + id
  }

  predicate IsLetter(c: char) {
    ('a' <= c <= 'z') || ('A' <= c <= 'Z')
  }

  predicate IsAlnum(c: char) {
    IsLetter(c) || ('0' <= c <= '9')
  }

  /** `[a-zA-Z0-9._%+-]` */
  predicate LocalChar(c: char) {
    IsAlnum(c) || c == '.' || c == '_' || c == '%' || c == '+' || c == '-'
  }

  /** `[a-zA-Z0-9.-]` */
  predicate DomainChar(c: char) {
    IsAlnum(c) || c == '.' || c == '-'
  }

  predicate AllLocal(s: string) { forall k :: 0 <= k < |s| ==> LocalChar(s[k]) }
  predicate AllDomain(s: string) { forall k :: 0 <= k < |s| ==> DomainChar(s[k]) }
  predicate AllLetters(s: string) { forall k :: 0 <= k < |s| ==> IsLetter(s[k]) }

  /** `s` splits at `at` and `dot` as `^[a-zA-Z0-9._%+-]+@[a-zA-Z0-9.-]+\.[a-zA-Z]{2,}$` requires:
      local part, '@', domain, '.', at least two letters. */
  predicate EmailSplit(s: string, at: int, dot: int) {
    && 0 < at && at + 1 < dot && dot + 3 <= |s|
    && s[at] == '@' && s[dot] == '.'
    && AllLocal(s[..at]) && AllDomain(s[at + 1..dot]) && AllLetters(s[dot + 1..])
  }

  /** The regular expression of `collectContactInfo`: some split of the string fits the pattern. */
  ghost predicate MatchesEmailPattern(s: string) {
    exists at, dot :: EmailSplit(s, at, dot)
  }

  /** The position of the first occurrence of `c`. */
  function IndexOf(s: string, c: char): (r: Option<nat>)
    ensures r.Some? ==> r.value < |s| && s[r.value] == c && forall k :: 0 <= k < r.value ==> s[k] != c
    ensures r.None? ==> forall k :: 0 <= k < |s| ==> s[k] != c
  {
    FindIndex(s, (x: char) => x == c)
  }

  /** The position of the last occurrence of `c`. */
  function LastIndexOf(s: string, c: char): (r: Option<nat>)
    ensures r.Some? ==> r.value < |s| && s[r.value] == c && forall k :: r.value < k < |s| ==> s[k] != c
    ensures r.None? ==> forall k :: 0 <= k < |s| ==> s[k] != c
  {
    if |s| == 0 then None
    else if s[|s| - 1] == c then Some(|s| - 1)
    else LastIndexOf(s[..|s| - 1], c)
  }

  /** A direct test of the e-mail pattern: split at the first '@' and at the last '.'. */
  function IsEmail(s: string): (b: bool)
    ensures b <==> MatchesEmailPattern(s)
  {
    var at := IndexOf(s, '@');
    var dot := LastIndexOf(s, '.');
    var b := at.Some? && dot.Some? && EmailSplit(s, at.value, dot.value);
    if b then b
    else
      EmailSplitIsUnique(s, at, dot);
      b
  }

  /** Any split that fits the pattern is at the first '@' and the last '.'. */
  lemma EmailSplitIsUnique(s: string, at: Option<nat>, dot: Option<nat>)
    requires at == IndexOf(s, '@') && dot == LastIndexOf(s, '.')
    ensures MatchesEmailPattern(s) ==> at.Some? && dot.Some? && EmailSplit(s, at.value, dot.value)
  {
    if MatchesEmailPattern(s) {
      var a, d :| EmailSplit(s, a, d);
      forall k | 0 <= k < a ensures s[k] != '@' {
        assert s[..a][k] == s[k];
        assert LocalChar(s[..a][k]);
      }
      forall k | d < k < |s| ensures s[k] != '.' {
        assert s[d + 1..][k - d - 1] == s[k];
        assert IsLetter(s[d + 1..][k - d - 1]);
      }
      assert at == Some(a as nat);
      assert dot == Some(d as nat);
    }
  }

  /** `collectContactInfo`. The e-mail is checked before the session; a rejected e-mail changes nothing. */
  function CollectContactInfo(sessions: Sessions, id: string, name: Option<string>, emailId: Option<string>): (r: (Reply, Sessions))
    ensures !Truthy(emailId) || !MatchesEmailPattern(emailId.value) ==> r == (Said(InvalidEmail), sessions)
    ensures Truthy(emailId) && MatchesEmailPattern(emailId.value) && id !in sessions ==> r == (Said(SessionNotFound(id)), sessions)
    ensures Truthy(emailId) && MatchesEmailPattern(emailId.value) && id in sessions ==>
      StoredAndAsked(sessions, id, sessions[id].details.(name := name, emailId := emailId), r)
  {
    if !Truthy(emailId) || !IsEmail(emailId.value) then (Said(InvalidEmail), sessions)
    else if id !in sessions then (Said(SessionNotFound(id)), sessions)
    else Store(sessions, id, (d: Details) => d.(name := name, emailId := emailId))
  }

  /** `confirmBudget`: always stores the answer; only "yes" in any letter case moves on. */
  function ConfirmBudget(sessions: Sessions, id: string, value: string): (r: (Reply, Sessions))
    ensures id !in sessions ==> r == (TypeError, sessions)
    ensures id in sessions ==>
      && r.1.Keys == sessions.Keys
      && (forall k :: k in sessions && k != id ==> r.1[k] == sessions[k])
      && r.1[id].details == sessions[id].details.(budgetConfirmation := Some(value))
      && (Lower(value) == "yes" ==> StoredAndAsked(sessions, id, r.1[id].details, r))
      && (Lower(value) != "yes" ==> r.0 == Said(BudgetFollowUp) && r.1[id].currentTool == sessions[id].currentTool)
  {
    if id !in sessions then (TypeError, sessions)
    else
      var s := sessions[id];
      var stored := sessions[id := s.(details := s.details.(budgetConfirmation := Some(value)))];
      if Lower(value) == "yes" then CollectDetails(stored, id) else (Said(BudgetFollowUp), stored)
  }

  /** Once every earlier detail is in, confirming the budget with "yes" completes the conversation. */
  lemma YesCompletes(sessions: Sessions, id: string, value: string)
    requires id in sessions && NextStep(sessions[id].details) == BudgetConfirmation
    requires Lower(value) == "yes"
    ensures ConfirmBudget(sessions, id, value).0 == Ask(Complete)
    ensures ConfirmBudget(sessions, id, value).1[id].currentTool == Some("complete")
  {
    var d := sessions[id].details;
    assert Answered(d, CustomerLocation) && Answered(d, HomeLocation) && Answered(d, PropertyType);
    assert Answered(d, ScopeOfWork) && Answered(d, StartDate) && Answered(d, ContactInfo);
    assert value != "" by {
      assert |Lower(value)| == 3;
    }
  }
}

=== FILE: rag_query.dfy ===
/** The deterministic parts of the multilingual RAG query service: the chat-history
    rendering, the choice of the question and language to answer in, and the outputs
    for disabled or misconfigured settings. The language model and the vector store
    are outside; their answers are inputs. */
module RagQuery {
  import opened JsCore

  // ---------------------------------------------------------------------------
  // formatChatHistory

  datatype Message = Message(role: string, content: string)

  /** The line an entry becomes: "User: " for the user's entries, "System: " for every other role. */
  function Line(m: Message): string {
    (if m.role == "user" then "User: " else "System: ") + m.content + "\n"
  }

  /** The concatenated lines before trimming. */
  function Lines(history: seq<Message>): string {
    if |history| == 0 then "" else Line(history[0]) + Lines(history[1..])
  }

  /** `formatChatHistory` */
  function FormatChatHistory(history: seq<Message>): string {
    Trim(Lines(history))
  }

  /** The label of an entry without its trailing space. */
  function Speaker(m: Message): (r: string)
    ensures |r| > 0 && !IsJsWhitespace(r[0]) && !IsJsWhitespace(r[|r| - 1])
  {
    if m.role == "user" then "User:" else "System:"
  }

  /** Every line starts with its label, so trimming only ever removes trailing whitespace: the
      rendering is the concatenated lines minus a whitespace-only tail, ends in no whitespace,
      is empty exactly for an empty history and otherwise starts with the first speaker. */
  lemma {:induction false} FormatKeepsLines(history: seq<Message>)
    ensures var f, raw := FormatChatHistory(history), Lines(history);
      && |f| <= |raw| && f == raw[..|f|] && AllWhitespace(raw[|f|..])
      && (|f| == 0 || !IsJsWhitespace(f[|f| - 1]))
      && (|history| == 0 <==> f == "")
      && (|history| > 0 ==> Speaker(history[0]) <= f)
  {
    var raw := Lines(history);
    if |history| > 0 {
      LinesStartWithSpeaker(history);
      assert TrimStart(raw) == raw;
      TrimEndKeepsPrefix(raw, Speaker(history[0]));
    }
  }

  lemma {:induction false} LinesStartWithSpeaker(history: seq<Message>)
    requires |history| > 0
    ensures Speaker(history[0]) <= Lines(history)
  {
    var speaker, line := Speaker(history[0]), Line(history[0]);
    assert line == speaker + (" " + history[0].content + "\n");
    assert Lines(history) == line + Lines(history[1..]);
    PrefixOfConcat(speaker, " " + history[0].content + "\n", Lines(history[1..]));
  }

  lemma PrefixOfConcat(a: string, b: string, c: string)
    ensures a <= a + b + c
  {
    assert (a + b + c)[..|a|] == a;
  }

  /** Trimming the end of a string keeps any prefix that ends in a non-blank. */
  lemma {:induction false} TrimEndKeepsPrefix(s: string, p: string)
    requires |p| > 0 && p <= s && !IsJsWhitespace(p[|p| - 1])
    ensures p <= TrimEnd(s)
  {
    if IsJsWhitespace(s[|s| - 1]) {
      assert |s| > |p|;
      assert p <= s[..|s| - 1];
      TrimEndKeepsPrefix(s[..|s| - 1], p);
    }
  }

  /** Each entry contributes exactly its line, in order. */
  lemma LinesAppend(history: seq<Message>, m: Message)
    ensures Lines(history + [m]) == Lines(history) + Line(m)
  {
    if |history| > 0 {
      assert (history + [m])[1..] == history[1..] + [m];
      LinesAppend(history[1..], m);
    } else {
      assert history + [m] == [m];
    }
  }

  // ---------------------------------------------------------------------------
  // Query context (the question and language answered)

  /** What `JSON.parse` makes of the model's rephrasing reply: not JSON, `null`, a number, string or
      boolean, or an object (arrays included) with its `rephrased_question` and `language` members. */
  datatype ParsedReply =
    | NotJson
    | JsonNull
    | JsonPrimitive
    | JsonObject(rephrased: Option<string>, language: Option<string>)

  /** `queryContext`: the question to ask and the language to answer in (None when undefined). */
  datatype QueryContext = QueryContext(rephrasedQuestion: Option<string>, language: Option<string>)

  const ReadLanguageOfNull := "TypeError: Cannot read properties of null (reading 'language')"

  /** Lines 409-432 of the query: with a history the model's JSON rephrasing is used, its language
      falling back to English; without one the model's reply is the language of the question.
      Reading `language` of a `null` reply throws. */
  function ResolveQueryContext(hasHistory: bool, question: string, replyText: string, parsed: ParsedReply): (r: Result<QueryContext, string>)
    ensures r.Err? <==> hasHistory && parsed.JsonNull?
    ensures r.Ok? ==> r.value.language != Some("Unknown")
    ensures hasHistory && parsed.JsonObject? ==>
      && r.Ok? && r.value.rephrasedQuestion == parsed.rephrased && Truthy(r.value.language)
      && (Truthy(parsed.language) && parsed.language != Some("Unknown") ==> r.value.language == parsed.language)
      && (!Truthy(parsed.language) || parsed.language == Some("Unknown") ==> r.value.language == Some("English"))
    ensures hasHistory && parsed.NotJson? ==> r == Ok(QueryContext(Some(question), Some("English")))
    ensures hasHistory && parsed.JsonPrimitive? ==> r == Ok(QueryContext(None, None))
    ensures !hasHistory ==>
      && r.Ok? && r.value.rephrasedQuestion == Some(question)
      && r.value.language == Some(if replyText == "Unknown" then "English" else replyText)
  {
    if hasHistory then
      match parsed
      case NotJson => Ok(QueryContext(Some(question), Some("English")))
      case JsonNull => Err(ReadLanguageOfNull)
      // assigning a property of a primitive is ignored outside strict mode
      case JsonPrimitive => Ok(QueryContext(None, None))
      case JsonObject(q, lang) =>
        Ok(QueryContext(q, if lang == Some("Unknown") || !Truthy(lang) then Some("English") else lang))
    else Ok(QueryContext(Some(question), Some(if replyText != "Unknown" then replyText else "English")))
  }

  /** The language the model's reply offers: the `language` member of the JSON rephrasing when there is a
      history, the reply itself when there is none, and nothing for a reply that is not an object. */
  function OfferedLanguage(hasHistory: bool, replyText: string, parsed: ParsedReply): Option<string> {
    if !hasHistory then Some(replyText)
    else if parsed.JsonObject? then parsed.language
    else None
  }

  /** A language the answer can be given in: present, non-empty and not the model's "Unknown". */
  predicate UsableLanguage(l: Option<string>) {
    Truthy(l) && l != Some("Unknown")
  }

  /** The context never answers in "Unknown": it answers in the offered language when that is usable and
      in English otherwise, with two exceptions the code leaves open. A reply that is a JSON primitive
      leaves the language undefined, and an empty reply without a history becomes the empty language. */
  lemma AnswerLanguage(hasHistory: bool, question: string, replyText: string, parsed: ParsedReply)
    ensures var r, offered := ResolveQueryContext(hasHistory, question, replyText, parsed), OfferedLanguage(hasHistory, replyText, parsed);
      r.Ok? ==>
        && r.value.language != Some("Unknown")
        && (UsableLanguage(offered) ==> r.value.language == offered)
        && (!UsableLanguage(offered) ==>
              r.value.language == if hasHistory && parsed.JsonPrimitive? then None
                                  else if !hasHistory && replyText == "" then Some("")
                                  else Some("English"))
  {
  }

  /** The question a successful answer reports: the user's own question unless a history was rephrased
      into a JSON object, whose `rephrased_question` member is reported instead. */
  lemma AnsweredQuery(question: string, hasHistory: bool, replyText: string, parsed: ParsedReply, reply: string, tokens: int)
    ensures var r := QueryAIModel(question, TruthySettings(Some(VectorDb(Some("chromadb")))), hasHistory, replyText, parsed, Ok((reply, tokens)));
      && (hasHistory && parsed.JsonNull? <==> r == Some(NotTrained))
      && (!hasHistory || parsed.NotJson? ==> r == Some(Output(reply, Some(question), tokens, false)))
      && (hasHistory && parsed.JsonObject? ==> r == Some(Output(reply, parsed.rephrased, tokens, false)))
  {
  }

  // ---------------------------------------------------------------------------
  // queryAIModel outputs

  /** What `isJsonString` and `JSON.parse` make of the settings: not JSON, a falsy value, or a truthy
      value whose `vector_db` is missing (None) or has the given `type` (None when it has none). */
  datatype Settings =
    | Unparseable
    | FalsySettings
    | TruthySettings(vectorDb: Option<VectorDb>)

  datatype VectorDb = VectorDb(kind: Option<string>)

  /** The object the query resolves to; `query` is None where the object has no such member. */
  datatype Output = Output(response: string, query: Option<string>, tokensConsumed: int, error: bool)

  function Disabled(question: string): Output {
    Output("Feature is disabled.", Some(question), 0, true)
  }

  const NotTrained := Output("Not trained properly.", None, 0, true)

  /** `queryAIModel`. `answer` is what the retrieval pipeline produces — the reply and the tokens it
      used — or the error it throws; the rephrasing reply is `replyText` as parsed into `parsed`.
      None is the `undefined` returned for a vector store other than chromadb. */
  function QueryAIModel(question: string, settings: Settings, hasHistory: bool, replyText: string, parsed: ParsedReply,
                        answer: Result<(string, int), string>): (r: Option<Output>)
    ensures settings.Unparseable? || settings.FalsySettings? <==> r == Some(Disabled(question))
    ensures settings.TruthySettings? && settings.vectorDb.None? ==> r == Some(NotTrained)
    ensures settings.TruthySettings? && settings.vectorDb.Some? && settings.vectorDb.value.kind != Some("chromadb") ==> r.None?
    ensures r.Some? && !r.value.error ==>
      && answer.Ok? && r.value.response == answer.value.0 && r.value.tokensConsumed == answer.value.1
      && ResolveQueryContext(hasHistory, question, replyText, parsed).Ok?
      && r.value.query == ResolveQueryContext(hasHistory, question, replyText, parsed).value.rephrasedQuestion
    ensures r.Some? && r.value.error ==> r == Some(Disabled(question)) || r == Some(NotTrained)
    ensures settings == TruthySettings(Some(VectorDb(Some("chromadb")))) ==>
      var context := ResolveQueryContext(hasHistory, question, replyText, parsed);
      && (r == Some(NotTrained) <==> context.Err? || answer.Err?)
      && (context.Ok? && answer.Ok? ==> r.Some? && !r.value.error)
  {
    match settings
    case Unparseable => Some(Disabled(question))
    case FalsySettings => Some(Disabled(question))
    case TruthySettings(db) =>
      if db.None? then Some(NotTrained)
      else if db.value.kind != Some("chromadb") then None
      else
        var context := ResolveQueryContext(hasHistory, question, replyText, parsed);
        if context.Err? || answer.Err? then Some(NotTrained)
        else Some(Output(answer.value.0, context.value.rephrasedQuestion, answer.value.1, false))
  }
}

=== FILE: wayfinding.dfy ===
/** The hospital-wayfinding path search: a directed graph of locations built from a
    flat connection table, and a depth-first search that lists accessible routes
    between two locations for a mobility profile on a given date. */
module Wayfinding {
  import opened JsCore

  type LocationId = string

  /** A date as `new Date(text)` yields it: a day number, or an Invalid Date
      (NaN), which compares false with everything. */
  datatype JsDate = Day(ordinal: int) | InvalidDate

  /** `a <= b` on two Date objects. */
  predicate DateLe(a: JsDate, b: JsDate) {
    a.Day? && b.Day? && a.ordinal <= b.ordinal
  }

  /** One row of the connection table. */
  datatype Connection = Connection(
    from: LocationId,
    to: LocationId,
    mode: string,
    estimatedTimeMin: real,
    landmark: string,
    directionText: string,
    validFrom: JsDate,
    validTo: JsDate,
    accessibility: Option<string>)

  /** An outgoing edge as the graph stores it: the connection without its `from`. */
  datatype Edge = Edge(
    to: LocationId,
    mode: string,
    estimatedTimeMin: real,
    landmark: string,
    directionText: string,
    validFrom: JsDate,
    validTo: JsDate,
    accessibility: Option<string>)

  /** The adjacency map: location to its outgoing edges, in table order. */
  type Graph = map<LocationId, seq<Edge>>

  /** A mobility profile; `allowedModes` is absent when the profile has no `AllowedModes`. */
  datatype Profile = Profile(allowedModes: Option<seq<string>>, description: string)

  function EdgeOf(c: Connection): Edge {
    Edge(c.to, c.mode, c.estimatedTimeMin, c.landmark, c.directionText, c.validFrom, c.validTo, c.accessibility)
  }

  /** The locations that have at least one outgoing connection. */
  function Sources(conns: seq<Connection>): set<LocationId> {
    set i | 0 <= i < |conns| :: conns[i].from
  }

  /** Reference definition: the edges of the connections leaving `k`, in table order. */
  function EdgesFrom(conns: seq<Connection>, k: LocationId): seq<Edge> {
    if |conns| == 0 then []
    else EdgesFrom(conns[..|conns| - 1], k) + (if conns[|conns| - 1].from == k then [EdgeOf(conns[|conns| - 1])] else [])
  }

  lemma EdgesFromSnoc(conns: seq<Connection>, c: Connection, k: LocationId)
    ensures EdgesFrom(conns + [c], k) == EdgesFrom(conns, k) + (if c.from == k then [EdgeOf(c)] else [])
  {
    assert (conns + [c])[..|conns|] == conns;
  }

  lemma SourcesSnoc(conns: seq<Connection>, c: Connection)
    ensures Sources(conns + [c]) == Sources(conns) + {c.from}
  {
    var all := conns + [c];
    forall x | x in Sources(all) ensures x in Sources(conns) + {c.from} {
      var i :| 0 <= i < |all| && all[i].from == x;
      if i < |conns| { assert conns[i].from == x; }
    }
    forall x | x in Sources(conns) ensures x in Sources(all) {
      var i :| 0 <= i < |conns| && conns[i].from == x;
      assert all[i].from == x;
    }
    assert all[|conns|].from == c.from;
  }

  lemma {:induction false} EdgesFromEmpty(conns: seq<Connection>, k: LocationId)
    requires k !in Sources(conns)
    ensures EdgesFrom(conns, k) == []
  {
    if |conns| > 0 {
      var init, c := conns[..|conns| - 1], conns[|conns| - 1];
      assert conns == init + [c];
      SourcesSnoc(init, c);
      EdgesFromEmpty(init, k);
    }
  }

  /** `buildGraph`: one pass over the table, appending each connection to the list
      of its `FromLocationID`. The date argument is accepted and never consulted. */
  function BuildGraph(conns: seq<Connection>, currentDate: JsDate): Graph {
    if |conns| == 0 then map[]
    else
      var g0 := BuildGraph(conns[..|conns| - 1], currentDate);
      var c := conns[|conns| - 1];
      g0[c.from := (if c.from in g0 then g0[c.from] else []) + [EdgeOf(c)]]
  }

  /** The graph built from a table: its keys are exactly the locations with an outgoing
      connection, and each lists the edges of those connections in table order. No
      connection is dropped, whatever the date. */
  lemma {:induction false} BuildGraphSpec(conns: seq<Connection>, currentDate: JsDate)
    ensures BuildGraph(conns, currentDate).Keys == Sources(conns)
    ensures forall k :: k in BuildGraph(conns, currentDate) ==> BuildGraph(conns, currentDate)[k] == EdgesFrom(conns, k)
  {
    if |conns| > 0 {
      var init, c := conns[..|conns| - 1], conns[|conns| - 1];
      BuildGraphSpec(init, currentDate);
      assert conns == init + [c];
      BuildGraphStep(init, c, BuildGraph(init, currentDate), BuildGraph(conns, currentDate));
    }
  }

  /** Appending a connection to the table appends its edge to the list of its `FromLocationID`. */
  lemma BuildGraphSnoc(init: seq<Connection>, c: Connection, currentDate: JsDate)
    ensures var g0 := BuildGraph(init, currentDate);
      BuildGraph(init + [c], currentDate) == g0[c.from := (if c.from in g0 then g0[c.from] else []) + [EdgeOf(c)]]
  {
    assert (init + [c])[..|init|] == init;
  }

  /** One step of `buildGraph`, from the graph of a table to the graph of the table with `c` appended. */
  lemma BuildGraphStep(init: seq<Connection>, c: Connection, g0: Graph, g: Graph)
    requires g0.Keys == Sources(init) && forall k :: k in g0 ==> g0[k] == EdgesFrom(init, k)
    requires g == g0[c.from := (if c.from in g0 then g0[c.from] else []) + [EdgeOf(c)]]
    ensures g.Keys == Sources(init + [c])
    ensures forall k :: k in g ==> g[k] == EdgesFrom(init + [c], k)
  {
    SourcesSnoc(init, c);
    forall k | k in g ensures g[k] == EdgesFrom(init + [c], k) {
      EdgesFromSnoc(init, c, k);
      if k == c.from && c.from !in g0 {
        EdgesFromEmpty(init, k);
      }
    }
  }

  lemma {:induction false} EdgesFromHasConnection(conns: seq<Connection>, k: LocationId, e: Edge)
    requires e in EdgesFrom(conns, k)
    ensures exists i :: 0 <= i < |conns| && conns[i].from == k && EdgeOf(conns[i]) == e
  {
    var init, last := conns[..|conns| - 1], conns[|conns| - 1];
    if !(last.from == k && e == EdgeOf(last)) {
      EdgesFromHasConnection(init, k, e);
      var i :| 0 <= i < |init| && init[i].from == k && EdgeOf(init[i]) == e;
      assert conns[i] == init[i];
    }
  }

  lemma {:induction false} ConnectionInEdgesFrom(conns: seq<Connection>, i: int)
    requires 0 <= i < |conns|
    ensures EdgeOf(conns[i]) in EdgesFrom(conns, conns[i].from)
  {
    var init := conns[..|conns| - 1];
    if i < |init| {
      ConnectionInEdgesFrom(init, i);
      assert init[i] == conns[i];
    }
  }

  /** Every connection of the table is kept, under its `FromLocationID`. */
  lemma BuildGraphKeepsEveryConnection(conns: seq<Connection>, currentDate: JsDate, i: int)
    requires 0 <= i < |conns|
    ensures conns[i].from in BuildGraph(conns, currentDate)
    ensures EdgeOf(conns[i]) in BuildGraph(conns, currentDate)[conns[i].from]
  {
    BuildGraphSpec(conns, currentDate);
    ConnectionInEdgesFrom(conns, i);
  }

  // ---------------------------------------------------------------------------
  // The search

  /** What the inner `dfs` sees from its enclosing call: the graph, the target,
      the allowed modes and the module's `currentDate`. */
  datatype Search = Search(graph: Graph, end: LocationId, modes: seq<string>, currentDate: JsDate)

  /** The allowed modes: the profile's `AllowedModes` when present, otherwise Walk and Lift. */
  function AllowedModes(profile: Option<Profile>): seq<string> {
    if profile.Some? && profile.value.allowedModes.Some? then profile.value.allowedModes.value
    else ["Walk", "Lift"]
  }

  /** The checks an edge must pass besides "target not yet visited". */
  predicate Usable(s: Search, e: Edge) {
    && e.mode in s.modes
    && e.accessibility.Some? && Lower(e.accessibility.value) == "yes"
    && DateLe(e.validFrom, s.currentDate) && DateLe(s.currentDate, e.validTo)
  }

  function Neighbours(g: Graph, loc: LocationId): seq<Edge> {
    if loc in g then g[loc] else []
  }

  /** Every location some edge leads to. */
  function Targets(g: Graph): set<LocationId> {
    set k, i | k in g && 0 <= i < |g[k]| :: g[k][i].to
  }

  /** The locations of a walk that leaves `start` and takes the edges of `trail`. */
  function PathOf(start: LocationId, trail: seq<Edge>): (p: seq<LocationId>)
    ensures |p| == |trail| + 1 && p[0] == start
    ensures forall k :: 0 <= k < |trail| ==> p[k + 1] == trail[k].to
  {
    if |trail| == 0 then [start]
    else PathOf(start, trail[..|trail| - 1]) + [trail[|trail| - 1].to]
  }

  function Instruction(e: Edge): string {
    e.directionText + ". Near landmark is " + e.landmark
  }

  function StartInstruction(start: LocationId): string {
    "Start at " + start
  }

  /** The instruction list of a walk: where it starts, then one line per edge. */
  function InstructionsOf(start: LocationId, trail: seq<Edge>): (ins: seq<string>)
    ensures |ins| == |trail| + 1 && ins[0] == StartInstruction(start)
    ensures forall k :: 0 <= k < |trail| ==> ins[k + 1] == Instruction(trail[k])
  {
    if |trail| == 0 then [StartInstruction(start)]
    else InstructionsOf(start, trail[..|trail| - 1]) + [Instruction(trail[|trail| - 1])]
  }

  /** The sum of the edges' `EstimatedTimeMin`, added in walk order. */
  function TimeOf(trail: seq<Edge>): real {
    if |trail| == 0 then 0.0 else TimeOf(trail[..|trail| - 1]) + trail[|trail| - 1].estimatedTimeMin
  }

  predicate Distinct(p: seq<LocationId>) {
    forall i, j :: 0 <= i < j < |p| ==> p[i] != p[j]
  }

  /** Every step of `trail` takes an edge listed under the location it leaves and passes the checks. */
  predicate IsWalk(s: Search, start: LocationId, trail: seq<Edge>) {
    forall k :: 0 <= k < |trail| ==>
      trail[k] in Neighbours(s.graph, PathOf(start, trail)[k]) && Usable(s, trail[k])
  }

  /** A route the search may report: a usable walk on distinct locations that
      reaches `end` at its last location and not before. */
  predicate IsRoute(s: Search, start: LocationId, trail: seq<Edge>) {
    var p := PathOf(start, trail);
    && IsWalk(s, start, trail)
    && p[|p| - 1] == s.end
    && (forall k :: 0 <= k < |trail| ==> p[k] != s.end)
    && Distinct(p)
  }

  /** What the search state must satisfy when `dfs` is entered at `loc`. */
  predicate Entry(s: Search, start: LocationId, loc: LocationId, trail: seq<Edge>, visited: set<LocationId>) {
    var p := PathOf(start, trail);
    && IsWalk(s, start, trail)
    && p[|p| - 1] == loc
    && (forall k :: 0 <= k < |trail| ==> p[k] != s.end)
    && Distinct(p)
    && (forall k :: 0 <= k < |p| ==> p[k] in visited)
  }

  lemma TargetOfNeighbour(g: Graph, loc: LocationId, i: int)
    requires 0 <= i < |Neighbours(g, loc)|
    ensures Neighbours(g, loc)[i].to in Targets(g)
  {
    assert loc in g;
    assert g[loc][i].to in Targets(g);
  }

  lemma {:induction false} EntryStep(s: Search, start: LocationId, loc: LocationId, trail: seq<Edge>,
                                     visited: set<LocationId>, e: Edge)
    requires Entry(s, start, loc, trail, visited)
    requires loc != s.end
    requires e in Neighbours(s.graph, loc) && Usable(s, e) && e.to !in visited
    ensures Entry(s, start, e.to, trail + [e], visited + {e.to})
  {
    var t := trail + [e];
    assert t[..|t| - 1] == trail;
    var p := PathOf(start, trail);
    assert PathOf(start, t) == p + [e.to];
    WalkStep(s, start, trail, e);
  }

  /** A walk extended by a usable edge leaving its last location is still a walk. */
  lemma {:induction false} WalkStep(s: Search, start: LocationId, trail: seq<Edge>, e: Edge)
    requires IsWalk(s, start, trail)
    requires e in Neighbours(s.graph, PathOf(start, trail)[|trail|]) && Usable(s, e)
    ensures IsWalk(s, start, trail + [e])
  {
    var t := trail + [e];
    assert t[..|t| - 1] == trail;
    assert PathOf(start, t) == PathOf(start, trail) + [e.to];
    forall k | 0 <= k < |t|
      ensures t[k] in Neighbours(s.graph, PathOf(start, t)[k]) && Usable(s, t[k])
    {
      if k < |trail| {
        assert t[k] == trail[k];
      }
    }
  }

  /** Stepping along a usable edge to an unvisited target keeps the search state well
      formed, both for the child search and for the siblings that follow. */
  lemma {:induction false} EntryAfterStep(s: Search, start: LocationId, loc: LocationId, trail: seq<Edge>,
                       visited: set<LocationId>, e: Edge)
    ensures Entry(s, start, loc, trail, visited) && loc != s.end &&
            e in Neighbours(s.graph, loc) && Usable(s, e) && e.to !in visited ==>
      Entry(s, start, e.to, trail + [e], visited + {e.to}) && Entry(s, start, loc, trail, visited + {e.to})
  {
    if Entry(s, start, loc, trail, visited) && loc != s.end &&
       e in Neighbours(s.graph, loc) && Usable(s, e) && e.to !in visited {
      EntryStep(s, start, loc, trail, visited, e);
    }
  }

  /** The inner `dfs`: at `end` the walk so far is recorded; elsewhere the
      outgoing edges are tried in order. Entered in a well-formed state, it
      records only routes that extend the walk so far. */
  function Dfs(s: Search, start: LocationId, loc: LocationId, trail: seq<Edge>, visited: set<LocationId>): (r: seq<seq<Edge>>)
    ensures Entry(s, start, loc, trail, visited) ==> forall t :: t in r ==> IsRoute(s, start, t) && trail <= t
    decreases Targets(s.graph) - visited, 1, 0
  {
    if loc == s.end then [trail]
    else Explore(s, start, loc, trail, visited, 0)
  }

  /** The neighbour loop of `dfs`, from the `i`-th outgoing edge on. An edge that
      passes every check is added to `visited` of this call (the parent's set)
      before the child search runs on a copy, so later siblings skip its target. */
  function Explore(s: Search, start: LocationId, loc: LocationId, trail: seq<Edge>,
                   visited: set<LocationId>, i: nat): (r: seq<seq<Edge>>)
    ensures Entry(s, start, loc, trail, visited) && loc != s.end ==>
      forall t :: t in r ==> IsRoute(s, start, t) && trail <= t
    decreases Targets(s.graph) - visited, 0, |Neighbours(s.graph, loc)| - i
  {
    var ns := Neighbours(s.graph, loc);
    if i >= |ns| then []
    else
      var e := ns[i];
      if e.to in visited || !Usable(s, e) then Explore(s, start, loc, trail, visited, i + 1)
      else
        TargetOfNeighbour(s.graph, loc, i);
        EntryAfterStep(s, start, loc, trail, visited, e);
        var child := Dfs(s, start, e.to, trail + [e], visited + {e.to});
        var rest := Explore(s, start, loc, trail, visited + {e.to}, i + 1);
        child + rest
  }

  /** Which of the three shapes `instructions` takes. */
  datatype Instructions = Message(text: string) | Steps(lines: seq<string>)

  datatype PathResult = PathResult(path: Option<seq<LocationId>>, instructions: Instructions, totalTime: real)

  /** `findPath` returns either a bare object or an array of them. */
  datatype FindPathOutcome = Single(result: PathResult) | Many(results: seq<PathResult>)

  const NeitherFound := PathResult(None, Message("Neither start nor end point found in the graph."), 0.0)
  const NoPathFound := PathResult(None, Steps(["No path found."]), 0.0)

  /** The record pushed for a walk that reached `end`. */
  function Render(start: LocationId, trail: seq<Edge>): PathResult {
    PathResult(Some(PathOf(start, trail)), Steps(InstructionsOf(start, trail)), TimeOf(trail))
  }

  /** The record kept for a walk grows exactly as the source's `newPath`,
      `newInstructions` and `newTime` do, from the initial `[start]`,
      `Start at <start>` and 0. */
  lemma RenderStep(start: LocationId, trail: seq<Edge>, e: Edge)
    ensures Render(start, []) == PathResult(Some([start]), Steps(["Start at " + start]), 0.0)
    ensures Render(start, trail + [e]) ==
      PathResult(Some(Render(start, trail).path.value + [e.to]),
                 Steps(Render(start, trail).instructions.lines + [e.directionText + ". Near landmark is " + e.landmark]),
                 Render(start, trail).totalTime + e.estimatedTimeMin)
  {
    assert (trail + [e])[..|trail|] == trail;
  }

  function RenderAll(start: LocationId, trails: seq<seq<Edge>>): (rs: seq<PathResult>)
    ensures |rs| == |trails| && forall j :: 0 <= j < |trails| ==> rs[j] == Render(start, trails[j])
  {
    seq(|trails|, j requires 0 <= j < |trails| => Render(start, trails[j]))
  }

  /** Reported path records: a real path, or the failure sentinel. */
  ghost predicate IsReported(s: Search, start: LocationId, r: PathResult) {
    exists t :: IsRoute(s, start, t) && r == Render(start, t)
  }

  /** `findPath`: the search from `start` with `visited = {start}`, each recorded walk rendered. */
  function FindPath(g: Graph, start: LocationId, end: LocationId, profile: Option<Profile>, currentDate: JsDate): (r: FindPathOutcome)
    ensures r.Single? <==> (start !in g && end !in g)
    ensures r.Single? ==> r.result == NeitherFound
    ensures r.Many? ==> |r.results| >= 1
    ensures r.Many? ==> (NoPathFound in r.results ==> r.results == [NoPathFound])
    ensures r.Many? ==> forall j :: 0 <= j < |r.results| ==>
      r.results[j] == NoPathFound || IsReported(Search(g, end, AllowedModes(profile), currentDate), start, r.results[j])
  {
    if start !in g && end !in g then Single(NeitherFound)
    else
      var s := Search(g, end, AllowedModes(profile), currentDate);
      var trails := Dfs(s, start, start, [], {start});
      if |trails| == 0 then Many([NoPathFound])
      else
        var results := RenderAll(start, trails);
        assert forall j :: 0 <= j < |results| ==> IsReported(s, start, results[j]) by {
          forall j | 0 <= j < |results| ensures IsReported(s, start, results[j]) {
            assert IsRoute(s, start, trails[j]);
          }
        }
        assert NoPathFound !in results by {
          forall j | 0 <= j < |results| ensures results[j] != NoPathFound {
            assert results[j].path.Some?;
          }
        }
        Many(results)
  }

  /** `findSuitablePath`: the graph is built from the connection table and searched on the same date.
      Only a location some connection leaves counts as known; one that connections merely lead to does not. */
  function FindSuitablePath(conns: seq<Connection>, currentDate: JsDate, start: LocationId, end: LocationId,
                            profile: Option<Profile>): (r: FindPathOutcome)
    ensures r.Single? <==> start !in Sources(conns) && end !in Sources(conns)
    ensures r.Single? ==> r.result == NeitherFound
    ensures r.Many? ==>
      (r.results == [NoPathFound] <==>
         !exists t :: IsRoute(Search(BuildGraph(conns, currentDate), end, AllowedModes(profile), currentDate), start, t))
  {
    BuildGraphSpec(conns, currentDate);
    var g := BuildGraph(conns, currentDate);
    if start in g || end in g then
      FindPathComplete(g, start, end, profile, currentDate);
      FindPath(g, start, end, profile, currentDate)
    else FindPath(g, start, end, profile, currentDate)
  }

  /** `r` records walking the edges of `t`: one more location and one more instruction
      than edges; each edge is listed under the location it leaves, passes the checks,
      leads to the next location and gives the next instruction; `totalTime` adds them up. */
  predicate Walked(s: Search, r: PathResult, t: seq<Edge>) {
    && r.path.Some? && r.instructions.Steps?
    && |r.path.value| == |t| + 1 && |r.instructions.lines| == |t| + 1
    && r.totalTime == TimeOf(t)
    && forall k :: 0 <= k < |t| ==>
         && t[k] in Neighbours(s.graph, r.path.value[k]) && t[k].to == r.path.value[k + 1] && Usable(s, t[k])
         && r.instructions.lines[k + 1] == t[k].directionText + ". Near landmark is " + t[k].landmark
  }

  lemma WalkedRender(s: Search, start: LocationId, t: seq<Edge>)
    requires IsWalk(s, start, t)
    ensures Walked(s, Render(start, t), t)
  {
    var r := Render(start, t);
    assert r.path.value == PathOf(start, t) && r.instructions.lines == InstructionsOf(start, t);
  }

  /** What a reported record says, unpacked: the path runs from `start` to `end`,
      meets `end` only at its last position and repeats no location; there is one
      instruction per location, the first naming `start` and each later one built
      from the usable edge taken at that step; `totalTime` adds up those edges. */
  lemma ReportedRouteShape(s: Search, start: LocationId, r: PathResult)
    requires IsReported(s, start, r)
    ensures r.path.Some? && r.instructions.Steps?
    ensures |r.path.value| >= 1 && r.path.value[0] == start && r.path.value[|r.path.value| - 1] == s.end
    ensures forall k :: 0 <= k < |r.path.value| - 1 ==> r.path.value[k] != s.end
    ensures Distinct(r.path.value)
    ensures |r.instructions.lines| == |r.path.value| && r.instructions.lines[0] == "Start at " + start
    ensures exists t: seq<Edge> :: Walked(s, r, t)
  {
    var t: seq<Edge> :| IsRoute(s, start, t) && r == Render(start, t);
    assert r.path.value == PathOf(start, t) && r.instructions.lines == InstructionsOf(start, t);
    WalkedRender(s, start, t);
  }

  /** A route found while exploring the neighbours of `loc` from index `i` on:
      the first usable edge from `loc` to `end` is always taken, because the
      targets marked visited before it are not `end`. */
  lemma {:induction false} ExploreTakesFirstDirectEdge(s: Search, start: LocationId, loc: LocationId, trail: seq<Edge>,
                                                        visited: set<LocationId>, i: nat, j: nat)
    requires Entry(s, start, loc, trail, visited) && loc != s.end
    requires i <= j < |Neighbours(s.graph, loc)|
    requires Neighbours(s.graph, loc)[j].to == s.end && Usable(s, Neighbours(s.graph, loc)[j])
    requires s.end !in visited
    requires forall k :: i <= k < j ==> !(Neighbours(s.graph, loc)[k].to == s.end && Usable(s, Neighbours(s.graph, loc)[k]))
    ensures trail + [Neighbours(s.graph, loc)[j]] in Explore(s, start, loc, trail, visited, i)
    decreases j - i
  {
    var ns := Neighbours(s.graph, loc);
    var e := ns[i];
    if i == j {
      var child := Dfs(s, start, e.to, trail + [e], visited + {e.to});
      assert child == [trail + [e]];
      assert Explore(s, start, loc, trail, visited, i) == child + Explore(s, start, loc, trail, visited + {e.to}, i + 1);
    } else if e.to in visited || !Usable(s, e) {
      ExploreTakesFirstDirectEdge(s, start, loc, trail, visited, i + 1, j);
      assert Explore(s, start, loc, trail, visited, i) == Explore(s, start, loc, trail, visited, i + 1);
    } else {
      assert e.to != s.end;
      EntryStep(s, start, loc, trail, visited, e);
      ExploreTakesFirstDirectEdge(s, start, loc, trail, visited + {e.to}, i + 1, j);
      var rest := Explore(s, start, loc, trail, visited + {e.to}, i + 1);
      assert Explore(s, start, loc, trail, visited, i) == Dfs(s, start, e.to, trail + [e], visited + {e.to}) + rest;
    }
  }

  /** Partial completeness: when a usable connection leads straight from `start`
      to a different `end`, the first such connection is reported as a route. */
  lemma DirectConnectionReported(g: Graph, start: LocationId, end: LocationId, profile: Option<Profile>,
                                 currentDate: JsDate, j: nat)
    requires start in g && start != end && j < |g[start]|
    requires g[start][j].to == end && Usable(Search(g, end, AllowedModes(profile), currentDate), g[start][j])
    requires forall k :: 0 <= k < j ==>
      !(g[start][k].to == end && Usable(Search(g, end, AllowedModes(profile), currentDate), g[start][k]))
    ensures FindPath(g, start, end, profile, currentDate).Many?
    ensures Render(start, [g[start][j]]) in FindPath(g, start, end, profile, currentDate).results
  {
    var s := Search(g, end, AllowedModes(profile), currentDate);
    assert Entry(s, start, start, [], {start});
    ExploreTakesFirstDirectEdge(s, start, start, [], {start}, 0, j);
    var trails := Dfs(s, start, start, [], {start});
    assert [] + [g[start][j]] == [g[start][j]];
    var k :| 0 <= k < |trails| && trails[k] == [g[start][j]];
    assert RenderAll(start, trails)[k] == Render(start, [g[start][j]]);
  }

  /** A route from `loc` to `end` that the search rooted at `loc` may still take: a usable walk on
      distinct locations, none of which after `loc` is visited yet. */
  predicate Reaches(s: Search, loc: LocationId, u: seq<Edge>, visited: set<LocationId>) {
    var p := PathOf(loc, u);
    && IsWalk(s, loc, u)
    && p[|u|] == s.end
    && Distinct(p)
    && loc in visited
    && forall k :: 1 <= k <= |u| ==> p[k] !in visited
  }

  /** The locations of the tail of a walk are the tail of its locations. */
  lemma PathSuffix(loc: LocationId, u: seq<Edge>, m: nat)
    requires m <= |u|
    ensures PathOf(PathOf(loc, u)[m], u[m..]) == PathOf(loc, u)[m..]
  {
    var p, q := PathOf(loc, u), PathOf(PathOf(loc, u)[m], u[m..]);
    forall k | 0 <= k < |q| ensures q[k] == p[m..][k] {
      if k > 0 {
        assert u[m..][k - 1] == u[m + k - 1];
      }
    }
  }

  /** The tail of a walk is a walk from the location it starts at. */
  lemma SuffixWalk(s: Search, loc: LocationId, u: seq<Edge>, m: nat)
    requires IsWalk(s, loc, u) && m <= |u|
    ensures IsWalk(s, PathOf(loc, u)[m], u[m..])
  {
    var p, v := PathOf(loc, u), u[m..];
    PathSuffix(loc, u, m);
    forall k | 0 <= k < |v|
      ensures v[k] in Neighbours(s.graph, PathOf(p[m], v)[k]) && Usable(s, v[k])
    {
      assert v[k] == u[m + k] && PathOf(p[m], v)[k] == p[m + k];
    }
  }

  lemma DistinctSuffix(p: seq<LocationId>, m: nat)
    requires Distinct(p) && m <= |p|
    ensures Distinct(p[m..])
  {
    forall i, j | 0 <= i < j < |p| - m ensures p[m..][i] != p[m..][j] {
      assert p[m..][i] == p[m + i] && p[m..][j] == p[m + j];
    }
  }

  /** The tail of a path on distinct locations that avoids `visited` after its first location avoids
      `visited` and its own first location after that. */
  lemma AvoidingSuffix(p: seq<LocationId>, m: nat, visited: set<LocationId>)
    requires Distinct(p) && 1 <= m < |p|
    requires forall k :: 1 <= k < |p| ==> p[k] !in visited
    ensures forall k :: 1 <= k < |p| - m ==> p[m..][k] !in visited + {p[m]}
  {
    forall k | 1 <= k < |p| - m ensures p[m..][k] !in visited + {p[m]} {
      assert p[m..][k] == p[m + k];
    }
  }

  /** Continuing from the `m`-th location of a route that avoids `visited`. */
  lemma {:induction false} SuffixReaches(s: Search, loc: LocationId, u: seq<Edge>, visited: set<LocationId>, m: nat)
    requires Reaches(s, loc, u, visited) && 1 <= m <= |u|
    ensures Reaches(s, PathOf(loc, u)[m], u[m..], visited + {PathOf(loc, u)[m]})
  {
    var p := PathOf(loc, u);
    SuffixWalk(s, loc, u, m);
    PathSuffix(loc, u, m);
    DistinctSuffix(p, m);
    AvoidingSuffix(p, m, visited);
  }

  /** Completeness of `dfs`: entered where a route still avoids the visited locations, it records
      at least one walk. */
  lemma {:induction false} DfsReaches(s: Search, start: LocationId, loc: LocationId, trail: seq<Edge>,
                                      visited: set<LocationId>, u: seq<Edge>)
    requires Reaches(s, loc, u, visited)
    ensures Dfs(s, start, loc, trail, visited) != []
    decreases Targets(s.graph) - visited, 1, 0
  {
    if loc != s.end {
      var p := PathOf(loc, u);
      assert |u| > 0;
      assert u[0] in Neighbours(s.graph, p[0]);
      var ns := Neighbours(s.graph, loc);
      var j :| 0 <= j < |ns| && ns[j] == u[0];
      ExploreReaches(s, start, loc, trail, visited, 0, j, u);
    }
  }

  /** The neighbour loop from the `i`-th edge on, while the route's first edge is the `j`-th and
      still lies ahead: either an earlier sibling leads onto the route, and its search records a walk,
      or it leaves the route avoided and the loop goes on. */
  lemma {:induction false} ExploreReaches(s: Search, start: LocationId, loc: LocationId, trail: seq<Edge>,
                                          visited: set<LocationId>, i: nat, j: nat, u: seq<Edge>)
    requires loc != s.end && Reaches(s, loc, u, visited) && |u| > 0
    requires i <= j < |Neighbours(s.graph, loc)| && Neighbours(s.graph, loc)[j] == u[0]
    ensures Explore(s, start, loc, trail, visited, i) != []
    decreases Targets(s.graph) - visited, 0, |Neighbours(s.graph, loc)| - i
  {
    var ns := Neighbours(s.graph, loc);
    var p := PathOf(loc, u);
    var e := ns[i];
    assert u[0] in Neighbours(s.graph, p[0]) && Usable(s, u[0]);
    assert p[1] == u[0].to;
    if e.to in visited || !Usable(s, e) {
      assert i != j;
      ExploreReaches(s, start, loc, trail, visited, i + 1, j, u);
    } else {
      TargetOfNeighbour(s.graph, loc, i);
      if m :| 1 <= m <= |u| && p[m] == e.to {
        SuffixReaches(s, loc, u, visited, m);
        DfsReaches(s, start, e.to, trail + [e], visited + {e.to}, u[m..]);
      } else {
        assert i != j;
        ExploreReaches(s, start, loc, trail, visited + {e.to}, i + 1, j, u);
      }
      assert Explore(s, start, loc, trail, visited, i)
          == Dfs(s, start, e.to, trail + [e], visited + {e.to}) + Explore(s, start, loc, trail, visited + {e.to}, i + 1);
    }
  }

  /** Completeness of `findPath`: when the graph knows `start` or `end`, the search reports
      "No path found." exactly when no route exists. */
  lemma FindPathComplete(g: Graph, start: LocationId, end: LocationId, profile: Option<Profile>, currentDate: JsDate)
    requires start in g || end in g
    ensures FindPath(g, start, end, profile, currentDate).Many?
    ensures FindPath(g, start, end, profile, currentDate).results == [NoPathFound]
            <==> !exists t :: IsRoute(Search(g, end, AllowedModes(profile), currentDate), start, t)
  {
    var s := Search(g, end, AllowedModes(profile), currentDate);
    var trails := Dfs(s, start, start, [], {start});
    assert Entry(s, start, start, [], {start});
    if |trails| > 0 {
      assert IsRoute(s, start, trails[0]);
    }
    if t :| IsRoute(s, start, t) {
      var p := PathOf(start, t);
      assert forall k :: 1 <= k <= |t| ==> p[k] != p[0];
      assert Reaches(s, start, t, {start});
      DfsReaches(s, start, start, [], {start}, t);
      assert RenderAll(start, trails)[0].path.Some?;
    }
  }

  /** When `start` is `end` and the graph knows it, the only route is the one-location path. */
  lemma StartIsEnd(g: Graph, start: LocationId, profile: Option<Profile>, currentDate: JsDate)
    requires start in g
    ensures FindPath(g, start, start, profile, currentDate)
      == Many([PathResult(Some([start]), Steps(["Start at " + start]), 0.0)])
  {
    var s := Search(g, start, AllowedModes(profile), currentDate);
    assert Entry(s, start, start, [], {start});
    assert Dfs(s, start, start, [], {start}) == [[]];
    assert RenderAll(start, [[]]) == [Render(start, [])];
  }

  /** Each step of a route found over the built graph is one row of the connection
      table leaving the location the step starts from. */
  lemma RouteStepsComeFromTable(conns: seq<Connection>, currentDate: JsDate, start: LocationId, end: LocationId,
                                profile: Option<Profile>, t: seq<Edge>, k: nat)
    requires IsWalk(Search(BuildGraph(conns, currentDate), end, AllowedModes(profile), currentDate), start, t)
    requires k < |t|
    ensures exists i :: 0 <= i < |conns| && conns[i].from == PathOf(start, t)[k] && EdgeOf(conns[i]) == t[k]
  {
    BuildGraphSpec(conns, currentDate);
    EdgesFromHasConnection(conns, PathOf(start, t)[k], t[k]);
  }
}

=== FILE: wayfinding_scenarios.dfy ===
/** Small connection tables run through the path search, pinning down what it
    returns: the order of routes, the date and mode checks, and the visited-set
    behaviour that hides some simple paths. */
module WayfindingScenarios {
  import opened JsCore
  import opened Wayfinding

  const Today := Day(0)

  /** A connection valid from day -10 to day 10, accessible, with fixed texts. */
  function Conn(from: string, to: string, mode: string, t: real): Connection {
    Connection(from, to, mode, t, "Lm", "Go", Day(-10), Day(10), Some("Yes"))
  }
  const C13 := Conn("L001", "L003", "Walk", 0.5)
  const C16 := Conn("L001", "L006", "Walk", 1.5)
  const C36 := Conn("L003", "L006", "Walk", 1.5)
  const TableC := [C13, C16, C36]
  const GraphC: Graph := map["L001" := [EdgeOf(C13), EdgeOf(C16)], "L003" := [EdgeOf(C36)]]
  const SearchC := Search(GraphC, "L006", ["Walk", "Lift"], Today)

  lemma LowerYes()
    ensures Lower("Yes") == "yes"
  {
    assert Lower("Yes") == [LowerChar('Y')] + Lower("es");
    assert Lower("es") == [LowerChar('e')] + Lower("s");
    assert Lower("s") == [LowerChar('s')] + Lower("");
  }

  lemma GraphOfTableC()
    ensures BuildGraph(TableC, Today) == GraphC
  {
    assert "L003" != "L001" by { assert "L003"[3] != "L001"[3]; }
    assert [] + [EdgeOf(C13)] == [EdgeOf(C13)] && [] + [EdgeOf(C36)] == [EdgeOf(C36)];
    GraphC2();
    BuildGraphSnoc([C13, C16], C36, Today);
    assert [C13, C16] + [C36] == TableC;
  }

  lemma GraphC2()
    ensures BuildGraph([C13, C16], Today) == map["L001" := [EdgeOf(C13), EdgeOf(C16)]]
  {
    BuildGraphSnoc([], C13, Today);
    assert [] + [C13] == [C13];
    assert [] + [EdgeOf(C13)] == [EdgeOf(C13)];
    var g1 := BuildGraph([C13], Today);
    assert g1 == map["L001" := [EdgeOf(C13)]];
    BuildGraphSnoc([C13], C16, Today);
    assert [C13] + [C16] == [C13, C16];
    assert g1[C16.from] + [EdgeOf(C16)] == [EdgeOf(C13), EdgeOf(C16)];
  }

  lemma SearchCLeaves()
    ensures Dfs(SearchC, "L001", "L006", [EdgeOf(C13), EdgeOf(C36)], {"L001", "L003", "L006"}) == [[EdgeOf(C13), EdgeOf(C36)]]
    ensures Dfs(SearchC, "L001", "L006", [EdgeOf(C16)], {"L001", "L003", "L006"}) == [[EdgeOf(C16)]]
  {
    LowerYes();
    assert "L006" != "L001" by { assert "L006"[3] != "L001"[3]; }
    assert "L006" != "L003" by { assert "L006"[3] != "L003"[3]; }
  }

  lemma SearchCInner()
    ensures Dfs(SearchC, "L001", "L003", [EdgeOf(C13)], {"L001", "L003"}) == [[EdgeOf(C13), EdgeOf(C36)]]
  {
    LowerYes();
    SearchCLeaves();
    var V2: set<string> := {"L001", "L003"};
    var V3: set<string> := {"L001", "L003", "L006"};
    assert "L006" != "L003" by { assert "L006"[3] != "L003"[3]; }
    assert "L006" != "L001" by { assert "L006"[3] != "L001"[3]; }
    assert V2 + {"L006"} == V3;
    assert Neighbours(GraphC, "L003") == [EdgeOf(C36)];
    assert EdgeOf(C36).to !in V2;
    assert Usable(SearchC, EdgeOf(C36));
    assert [EdgeOf(C13)] + [EdgeOf(C36)] == [EdgeOf(C13), EdgeOf(C36)];
    assert Explore(SearchC, "L001", "L003", [EdgeOf(C13)], V3, 1) == [];
    assert Explore(SearchC, "L001", "L003", [EdgeOf(C13)], V2, 0) ==
      Dfs(SearchC, "L001", "L006", [EdgeOf(C13), EdgeOf(C36)], V3) + Explore(SearchC, "L001", "L003", [EdgeOf(C13)], V3, 1);
  }

  lemma SearchCTop()
    ensures Dfs(SearchC, "L001", "L001", [], {"L001"}) == [[EdgeOf(C13), EdgeOf(C36)], [EdgeOf(C16)]]
  {
    LowerYes();
    SearchCLeaves();
    SearchCInner();
    var V1: set<string> := {"L001"};
    var V2: set<string> := {"L001", "L003"};
    var V3: set<string> := {"L001", "L003", "L006"};
    assert "L006" != "L003" by { assert "L006"[3] != "L003"[3]; }
    assert "L006" != "L001" by { assert "L006"[3] != "L001"[3]; }
    assert "L003" != "L001" by { assert "L003"[3] != "L001"[3]; }
    assert V1 + {"L003"} == V2;
    assert V2 + {"L006"} == V3;
    assert Neighbours(GraphC, "L001") == [EdgeOf(C13), EdgeOf(C16)];
    assert Usable(SearchC, EdgeOf(C13)) && Usable(SearchC, EdgeOf(C16));
    assert [] + [EdgeOf(C13)] == [EdgeOf(C13)];
    assert [] + [EdgeOf(C16)] == [EdgeOf(C16)];
    assert Explore(SearchC, "L001", "L001", [], V3, 2) == [];
    assert Explore(SearchC, "L001", "L001", [], V2, 1) ==
      Dfs(SearchC, "L001", "L006", [EdgeOf(C16)], V3) + Explore(SearchC, "L001", "L001", [], V3, 2);
    assert Explore(SearchC, "L001", "L001", [], V1, 0) ==
      Dfs(SearchC, "L001", "L003", [EdgeOf(C13)], V2) + Explore(SearchC, "L001", "L001", [], V2, 1);
  }

  lemma FindPathC()
    ensures FindPath(GraphC, "L001", "L006", None, Today) == Many(RenderAll("L001", [[EdgeOf(C13), EdgeOf(C36)], [EdgeOf(C16)]]))
  {
    SearchCTop();
    assert "L001" in GraphC;
    assert AllowedModes(None) == ["Walk", "Lift"];
  }

  lemma RenderAllC()
    ensures RenderAll("L001", [[EdgeOf(C13), EdgeOf(C36)], [EdgeOf(C16)]]) == [Render("L001", [EdgeOf(C13), EdgeOf(C36)]), Render("L001", [EdgeOf(C16)])]
  {
  }

  /** Two routes to L006, via L003 first because that connection comes first in the table. */
  lemma ScenarioC()
    ensures FindSuitablePath(TableC, Today, "L001", "L006", None)
      == Many([Render("L001", [EdgeOf(C13), EdgeOf(C36)]), Render("L001", [EdgeOf(C16)])])
  {
    GraphOfTableC();
    FindPathC();
    RenderAllC();
  }

  // ---------------------------------------------------------------------------
  // A single accessible connection, searched inside and outside its window.

  const TableA := [C13]
  const GraphA: Graph := map["L001" := [EdgeOf(C13)]]

  lemma GraphOfTableA(d: JsDate)
    ensures BuildGraph(TableA, d) == GraphA
  {
    BuildGraphSnoc([], C13, d);
    assert [] + [C13] == TableA;
    assert [] + [EdgeOf(C13)] == [EdgeOf(C13)];
  }

  lemma SearchA()
    ensures Dfs(Search(GraphA, "L003", ["Walk", "Lift"], Today), "L001", "L001", [], {"L001"}) == [[EdgeOf(C13)]]
  {
    LowerYes();
    var s := Search(GraphA, "L003", ["Walk", "Lift"], Today);
    assert "L003" != "L001" by { assert "L003"[3] != "L001"[3]; }
    assert {"L001"} + {"L003"} == {"L001", "L003"};
    assert Usable(s, EdgeOf(C13));
    assert [] + [EdgeOf(C13)] == [EdgeOf(C13)];
    assert Dfs(s, "L001", "L003", [EdgeOf(C13)], {"L001", "L003"}) == [[EdgeOf(C13)]];
    assert Explore(s, "L001", "L001", [], {"L001", "L003"}, 1) == [];
    assert Explore(s, "L001", "L001", [], {"L001"}, 0) ==
      Dfs(s, "L001", "L003", [EdgeOf(C13)], {"L001", "L003"}) + Explore(s, "L001", "L001", [], {"L001", "L003"}, 1);
  }

  lemma RenderA()
    ensures Render("L001", [EdgeOf(C13)]) == PathResult(Some(["L001", "L003"]), Steps(["Start at L001", "Go. Near landmark is Lm"]), 0.5)
  {
    assert PathOf("L001", [EdgeOf(C13)]) == ["L001", "L003"];
    InstructionsA();
    assert TimeOf([EdgeOf(C13)]) == 0.5 by { assert [EdgeOf(C13)][..0] == []; }
  }

  lemma InstructionsA()
    ensures InstructionsOf("L001", [EdgeOf(C13)]) == ["Start at L001", "Go. Near landmark is Lm"]
  {
    assert StartInstruction("L001") == "Start at L001";
    assert Instruction(EdgeOf(C13)) == "Go. Near landmark is Lm";
  }

  /** Inside the window: exactly the path L001, L003 taking 0.5 minutes. */
  lemma ScenarioA()
    ensures FindSuitablePath(TableA, Today, "L001", "L003", None)
      == Many([PathResult(Some(["L001", "L003"]), Steps(["Start at L001", "Go. Near landmark is Lm"]), 0.5)])
  {
    GraphOfTableA(Today);
    SearchA();
    RenderA();
    assert AllowedModes(None) == ["Walk", "Lift"];
    assert RenderAll("L001", [[EdgeOf(C13)]]) == [Render("L001", [EdgeOf(C13)])];
  }

  /** Outside the window the graph still holds the edge (nothing is dropped when
      it is built) but the search refuses it, so the sentinel comes back. */
  lemma ScenarioB()
    ensures "L001" in BuildGraph(TableA, Day(20))
    ensures FindSuitablePath(TableA, Day(20), "L001", "L003", None) == Many([NoPathFound])
  {
    GraphOfTableA(Day(20));
    var s := Search(GraphA, "L003", ["Walk", "Lift"], Day(20));
    assert !Usable(s, EdgeOf(C13));
    assert "L003" != "L001" by { assert "L003"[3] != "L001"[3]; }
    assert Explore(s, "L001", "L001", [], {"L001"}, 1) == [];
    assert Dfs(s, "L001", "L001", [], {"L001"}) == [];
  }

  // ---------------------------------------------------------------------------
  // A lift-only connection under a walk-only profile.

  const TableD := [Conn("L001", "L002", "Lift", 1.0)]
  const GraphD: Graph := map["L001" := [EdgeOf(Conn("L001", "L002", "Lift", 1.0))]]
  const WalkOnly := Profile(Some(["Walk"]), "walks only")

  lemma ScenarioD()
    ensures FindSuitablePath(TableD, Today, "L001", "L002", Some(WalkOnly)) == Many([NoPathFound])
  {
    BuildGraphSnoc([], TableD[0], Today);
    assert [] + [TableD[0]] == TableD;
    assert [] + [EdgeOf(TableD[0])] == [EdgeOf(TableD[0])];
    assert BuildGraph(TableD, Today) == GraphD;
    var s := Search(GraphD, "L002", ["Walk"], Today);
    assert "Lift" != "Walk" by { assert "Lift"[0] != "Walk"[0]; }
    assert !Usable(s, EdgeOf(Conn("L001", "L002", "Lift", 1.0)));
    assert "L002" != "L001" by { assert "L002"[3] != "L001"[3]; }
    assert Explore(s, "L001", "L001", [], {"L001"}, 1) == [];
    assert Dfs(s, "L001", "L001", [], {"L001"}) == [];
  }

  // ---------------------------------------------------------------------------
  // The visited set shared between siblings: L001 -> L002 -> L009 is found first;
  // L002 then stays visited for the sibling through L003, so the simple path
  // L001 -> L003 -> L002 -> L009 is never reported.

  const CAB := Conn("L001", "L002", "Walk", 1.0)
  const CBE := Conn("L002", "L009", "Walk", 1.0)
  const CAC := Conn("L001", "L003", "Walk", 1.0)
  const CCB := Conn("L003", "L002", "Walk", 1.0)
  const TableQ := [CAB, CBE, CAC, CCB]
  const GraphQ: Graph := map["L001" := [EdgeOf(CAB), EdgeOf(CAC)], "L002" := [EdgeOf(CBE)], "L003" := [EdgeOf(CCB)]]
  const SearchQ := Search(GraphQ, "L009", ["Walk", "Lift"], Today)

  lemma DistinctIds()
    ensures "L001" != "L002" && "L001" != "L003" && "L001" != "L009"
    ensures "L002" != "L003" && "L002" != "L009" && "L003" != "L009"
  {
    assert "L001"[3] != "L002"[3] && "L001"[3] != "L003"[3] && "L001"[3] != "L009"[3];
    assert "L002"[3] != "L003"[3] && "L002"[3] != "L009"[3] && "L003"[3] != "L009"[3];
  }

  lemma GraphOfTableQ()
    ensures BuildGraph(TableQ, Today) == GraphQ
  {
    DistinctIds();
    GraphQ3();
    BuildGraphSnoc([CAB, CBE, CAC], CCB, Today);
    assert [CAB, CBE, CAC] + [CCB] == TableQ;
    assert [] + [EdgeOf(CCB)] == [EdgeOf(CCB)];
  }

  lemma GraphQ2()
    ensures BuildGraph([CAB, CBE], Today) == map["L001" := [EdgeOf(CAB)], "L002" := [EdgeOf(CBE)]]
  {
    DistinctIds();
    BuildGraphSnoc([], CAB, Today);
    assert [] + [CAB] == [CAB];
    assert [] + [EdgeOf(CAB)] == [EdgeOf(CAB)] && [] + [EdgeOf(CBE)] == [EdgeOf(CBE)];
    assert BuildGraph([CAB], Today) == map["L001" := [EdgeOf(CAB)]];
    BuildGraphSnoc([CAB], CBE, Today);
    assert [CAB] + [CBE] == [CAB, CBE];
  }

  lemma GraphQ3()
    ensures BuildGraph([CAB, CBE, CAC], Today) == map["L001" := [EdgeOf(CAB), EdgeOf(CAC)], "L002" := [EdgeOf(CBE)]]
  {
    DistinctIds();
    GraphQ2();
    var g2 := BuildGraph([CAB, CBE], Today);
    BuildGraphSnoc([CAB, CBE], CAC, Today);
    assert [CAB, CBE] + [CAC] == [CAB, CBE, CAC];
    assert g2[CAC.from] + [EdgeOf(CAC)] == [EdgeOf(CAB), EdgeOf(CAC)];
  }

  lemma SearchQViaL002()
    ensures Dfs(SearchQ, "L001", "L002", [EdgeOf(CAB)], {"L001", "L002"}) == [[EdgeOf(CAB), EdgeOf(CBE)]]
  {
    LowerYes();
    DistinctIds();
    var V: set<string> := {"L001", "L002"};
    var W: set<string> := {"L001", "L002", "L009"};
    assert V + {"L009"} == W;
    assert Usable(SearchQ, EdgeOf(CBE));
    assert [EdgeOf(CAB)] + [EdgeOf(CBE)] == [EdgeOf(CAB), EdgeOf(CBE)];
    assert Dfs(SearchQ, "L001", "L009", [EdgeOf(CAB), EdgeOf(CBE)], W) == [[EdgeOf(CAB), EdgeOf(CBE)]];
    assert Explore(SearchQ, "L001", "L002", [EdgeOf(CAB)], W, 1) == [];
    assert Explore(SearchQ, "L001", "L002", [EdgeOf(CAB)], V, 0) ==
      Dfs(SearchQ, "L001", "L009", [EdgeOf(CAB), EdgeOf(CBE)], W) + Explore(SearchQ, "L001", "L002", [EdgeOf(CAB)], W, 1);
  }

  lemma SearchQViaL003()
    ensures Dfs(SearchQ, "L001", "L003", [EdgeOf(CAC)], {"L001", "L002", "L003"}) == []
  {
    DistinctIds();
    var V: set<string> := {"L001", "L002", "L003"};
    assert EdgeOf(CCB).to in V;
    assert Explore(SearchQ, "L001", "L003", [EdgeOf(CAC)], V, 1) == [];
    assert Explore(SearchQ, "L001", "L003", [EdgeOf(CAC)], V, 0) == [];
  }

  lemma SearchQTop()
    ensures Dfs(SearchQ, "L001", "L001", [], {"L001"}) == [[EdgeOf(CAB), EdgeOf(CBE)]]
  {
    LowerYes();
    DistinctIds();
    SearchQViaL002();
    SearchQViaL003();
    var V1: set<string> := {"L001"};
    var V2: set<string> := {"L001", "L002"};
    var V3: set<string> := {"L001", "L002", "L003"};
    assert V1 + {"L002"} == V2;
    assert V2 + {"L003"} == V3;
    assert Usable(SearchQ, EdgeOf(CAB)) && Usable(SearchQ, EdgeOf(CAC));
    assert [] + [EdgeOf(CAB)] == [EdgeOf(CAB)];
    assert [] + [EdgeOf(CAC)] == [EdgeOf(CAC)];
    assert Explore(SearchQ, "L001", "L001", [], V3, 2) == [];
    assert Explore(SearchQ, "L001", "L001", [], V2, 1) ==
      Dfs(SearchQ, "L001", "L003", [EdgeOf(CAC)], V3) + Explore(SearchQ, "L001", "L001", [], V3, 2);
    assert Explore(SearchQ, "L001", "L001", [], V1, 0) ==
      Dfs(SearchQ, "L001", "L002", [EdgeOf(CAB)], V2) + Explore(SearchQ, "L001", "L001", [], V2, 1);
  }

  lemma HiddenRouteIsSimple()
    ensures IsRoute(SearchQ, "L001", [EdgeOf(CAC), EdgeOf(CCB), EdgeOf(CBE)])
  {
    DistinctIds();
    HiddenRoutePath();
    HiddenRouteIsWalk();
    var p := ["L001", "L003", "L002", "L009"];
    assert Distinct(p);
  }

  lemma HiddenRouteIsWalk()
    ensures IsWalk(SearchQ, "L001", [EdgeOf(CAC), EdgeOf(CCB), EdgeOf(CBE)])
  {
    LowerYes();
    HiddenRoutePath();
    var t := [EdgeOf(CAC), EdgeOf(CCB), EdgeOf(CBE)];
    assert Usable(SearchQ, EdgeOf(CAC)) && Usable(SearchQ, EdgeOf(CCB)) && Usable(SearchQ, EdgeOf(CBE));
    assert t[0] in GraphQ["L001"] && t[1] in GraphQ["L003"] && t[2] in GraphQ["L002"];
  }

  lemma HiddenRoutePath()
    ensures PathOf("L001", [EdgeOf(CAC), EdgeOf(CCB), EdgeOf(CBE)]) == ["L001", "L003", "L002", "L009"]
  {
    var t := [EdgeOf(CAC), EdgeOf(CCB), EdgeOf(CBE)];
    var p := PathOf("L001", t);
    assert p[0] == "L001" && p[1] == t[0].to && p[2] == t[1].to && p[3] == t[2].to;
  }

  lemma ResultOfTableQ()
    ensures FindSuitablePath(TableQ, Today, "L001", "L009", None) == Many([Render("L001", [EdgeOf(CAB), EdgeOf(CBE)])])
  {
    GraphOfTableQ();
    SearchQTop();
    assert RenderAll("L001", [[EdgeOf(CAB), EdgeOf(CBE)]]) == [Render("L001", [EdgeOf(CAB), EdgeOf(CBE)])];
    assert "L001" in GraphQ;
    assert AllowedModes(None) == ["Walk", "Lift"];
  }

  /** The search is sound but not complete over simple paths: L001, L003, L002,
      L009 is a usable simple route, yet only L001, L002, L009 is reported. */
  lemma SiblingVisitedHidesRoute()
    ensures IsRoute(SearchQ, "L001", [EdgeOf(CAC), EdgeOf(CCB), EdgeOf(CBE)])
    ensures FindSuitablePath(TableQ, Today, "L001", "L009", None) == Many([Render("L001", [EdgeOf(CAB), EdgeOf(CBE)])])
    ensures Render("L001", [EdgeOf(CAC), EdgeOf(CCB), EdgeOf(CBE)]) !in FindSuitablePath(TableQ, Today, "L001", "L009", None).results
  {
    HiddenRouteIsSimple();
    ResultOfTableQ();
    DistinctIds();
    var t := [EdgeOf(CAC), EdgeOf(CCB), EdgeOf(CBE)];
    assert |PathOf("L001", t)| == 4;
    assert |PathOf("L001", [EdgeOf(CAB), EdgeOf(CBE)])| == 3;
  }
}
